=== FILE: README.md ===
# Code playground core, modelled in Dafny

The playground has two parts. A small Node server runs a user's Python, C, C++ or Java program and asks a language model for its time and space complexity. A React editor shows the complexity as a bar chart and hosts an AI assistant panel. This project models the core of both parts and proves properties of the model:

- the `/run` handler of `server/index.js`. From a request `{code, language, input}` and its id (the millisecond clock reading), the model gives:
  - the files the handler writes and the shell command it runs;
  - from the command's outcome and the advisor's two replies, the JSON it answers with: `output`, the `Time: O(...)` and `Space: O(...)` estimates, and the summary;
- the container runner of `server/executor.js`: `getPublicClassName` and `runDockerCode`. The model gives the folder it creates, the file it writes, the `docker run` command and the single callback;
- `parse` and the two-bar panel of `fe/src/components/ComplexityGraph.tsx`;
- from `fe/src/components/AISidebar.tsx`:
  - the comment-stripping regular expression;
  - the component's eight state hooks, as a class whose methods are the two asynchronous handlers. Each handler is split at its first `await` into a start method and a finish method; both of its `await`s (the `fetch` and the JSON decoding) are folded into the reply that the finish method takes as a parameter;
  - the label and the disabled state of the submit button.

The clock, the file system, child processes, the network and the language model service are not modelled:
- the request id, the temporary directory, the process outcome (`err`, `stdout`, `stderr`) and the service replies are parameters;
- the directory creations, the file writes and the commands are returned as a list of effects, in the order the code performs them.

Files:
- `wrappers.dfy` (Option);
- `text.dfy`: ECMAScript `\s`, `\w` and line terminators, ASCII case mapping, `trim`, `includes`, the leftmost search of `String.prototype.match`, and decimal rendering of the id;
- `process.dfy`: commands, the `&&` chain and effects;
- `languages.dfy`;
- `java_source.dfy`: the `public\s+class\s+(\w+)` scanner that both servers use;
- `run_server.dfy`;
- `docker_executor.dfy`;
- `complexity_graph.dfy`;
- `ai_sidebar.dfy`: modules `CommentStripper` and `AISidebar`.

Four behaviours of the code are worth knowing, and the model keeps each of them:
- **Java fallback name.** `server/index.js:47-48` falls back to the class name `Main<id>` when no public class is declared, and it compiles the source under that name. It does not refuse the request (`RunServer.JavaClassFallback`).
- **Input file.** `/run` writes the input file before it checks the language (`server/index.js:29-30`). A refused request has therefore already touched the file system (`RunServer.UnsupportedLanguageRejected`).
- **Folder creation.** `runDockerCode` creates its folder before it validates anything (`server/executor.js:14-15`). The folder exists even for an unknown language or a Java source without a public class (`DockerExecutor.UnknownLanguageRefused`, `DockerExecutor.MissingPublicClassRefused`).
- **Shared folders.** The container runner uses one folder per language, `temp/<lang>`, and fixed file names. These are shared by every call for that language, so the workspace is not unique per request (`DockerExecutor.FileNames`).

The code deletes none of the files it writes. When a command is killed on timeout, `output` is the standard error the killed program had written, or the error message of `exec` when it wrote none; no field of the reply marks it as a timeout (`RunServer.OutputSelection`).

## Model

| member | source | states |
|---|---|---|
| Languages.ParseLanguage | server/index.js:32-54 | a language is selected by strict equality with one of `python`, `cpp`, `c`, `java`; any other value selects none |
| Languages.ParseName | server/executor.js:17-29 | each language's name selects that language |
| Text.Trim | server/index.js:102-105 | `trim` keeps the middle of the text between white-space margins; it neither starts nor ends with white space, and it is empty exactly for a blank text |
| Text.DecimalInjective | server/index.js:29 | different ids render as different decimal strings in the file names |
| Text.FirstMatch | server/index.js:47 | `match` without `g` returns the attempt at the leftmost position where the pattern matches, or nothing when it matches nowhere |
| Process.StepsStarted | server/index.js:40 | an `&&` chain starts at least its first command and never more commands than it has |
| Process.AndChainStarts | server/index.js:40 | the k-th command of an `&&` chain starts exactly when every earlier command exited with status 0 |
| JavaSource.ClassNameAt | server/executor.js:8 | an attempt at one position captures a non-empty run of word characters |
| JavaSource.ClassNameAtMeaning | server/executor.js:8 | the scanner at position i returns `name` exactly when `public`, white space, `class`, white space and the word `name` (not followed by another word character) stand at i: both directions |
| JavaSource.ClassNameAtDeclaration | server/executor.js:8 | such a declaration is what the scanner finds |
| JavaSource.GetPublicClassName | server/executor.js:7-10 | the result is the capture of the leftmost position where the pattern matches; it is null only when no position matches; a capture is a non-empty word |
| JavaSource.DeclaredClassFound | server/executor.js:7-10 | `public <ws> class <ws> Name...` yields `Name` for any white space and any text that does not continue the identifier |
| JavaSource.NoPublicNoClass | server/executor.js:7-10 | a source without the word `public` has no public class |
| RunServer.SelectOutput | server/index.js:57 | the `output` field is trimmed |
| RunServer.OutputSelection | server/index.js:57 | on failure `output` is the trimmed standard error, or the trimmed error message when stderr is empty; on success it is the trimmed standard output; the stdout of a failed command never reaches the client |
| RunServer.EstimateAt | server/index.js:77-78 | a capture of `Time:\s*O\(([^)]+)\)` is non-empty and free of `)` |
| RunServer.EstimateAtMeaning | server/index.js:77-78 | the scan at position i captures `c` exactly when the pattern matches there with that capture: the label in either letter case, white space, `O` or `o`, `(`, the non-empty `)`-free `c`, `)`: both directions |
| RunServer.FirstEstimate | server/index.js:77-78 | `match` without `g`: the attempt at the leftmost matching position, or nothing when no position matches |
| RunServer.EstimateField | server/index.js:77-80 | `time` (or `space`) is `O(` + the capture of the leftmost match + `)`, and it stays `N/A` exactly when the pattern matches nowhere |
| RunServer.EstimateFieldAt | server/index.js:77-80 | a match with no match before it decides the field |
| RunServer.EstimateRead | server/index.js:77-80 | a reply that has `Time:` in any letter case, optional white space and `O(c)` after a prefix where the pattern matches nowhere yields exactly `O(c)` |
| RunServer.EstimateNeedsLabel | server/index.js:77-78 | no match starts at a character that does not fold onto the label's first letter |
| RunServer.PromptedReply | server/index.js:62-80 | the reply the prompt asks for, `Time: O(n)` and `Space: O(1)` on two lines, yields `O(n)` and `O(1)` |
| RunServer.Pipeline | server/index.js:32-51 | one command for Python and two for the compiled languages; the first reads the source file written, and only the last reads the input file |
| RunServer.PlanRun | server/index.js:28-54 | the input file is written first; the language is refused exactly when it is not one of the four, and then nothing else happens; otherwise the code is written and the command that reads it runs with a 5 s limit |
| RunServer.Handle | server/index.js:23-107 | the 400 `Unsupported language` reply comes exactly for a refused language; a reply with output comes exactly when a command ran, and it is the reply to that command's outcome |
| RunServer.Respond | server/index.js:56-107 | once the command has finished, the reply is always the 200 JSON; its output is the selected output; time and space are the estimates read from the analysis whenever the analysis arrived (`N/A` when it failed); the summary is the trimmed second answer, or empty when either advisor call failed |
| RunServer.UnsupportedLanguageRejected | server/index.js:28-54 | the 400 `Unsupported language` reply comes exactly for a language outside the four; its only effect is the input file already written |
| RunServer.PythonPlan | server/index.js:29-35 | Python writes `input-<id>.txt`, then `code-<id>.py`, then runs `python3 <src> < <input>` with a 5 s limit |
| RunServer.CompiledPlan | server/index.js:36-45 | C and C++ write the input file, then `code-<id>.c` or `.cpp`, then run `<gcc or g++> <src> -o <bin> && <bin> < <input>` with a 5 s limit; only the binary reads the input, and it starts exactly when the compiler exits with status 0 |
| RunServer.CompileAndRunLine | server/index.js:40 | the shell text of the compile-and-run chain |
| RunServer.JavaClassFallback | server/index.js:47-48 | the class is the declared public class, or `Main<id>` when none is declared |
| RunServer.JavaPlan | server/index.js:46-51 | Java writes the input file, then `<class>.java`, then runs `javac <src> && java -cp <temp> <class> < <input>` with a 5 s limit |
| RunServer.JavaCommandLine | server/index.js:51 | the shell text of the Java chain |
| RunServer.FileNamesPerId | server/index.js:29-49 | different ids give different input files and, for Python, C and C++, different sources; a Java source that declares its class always goes to the same `<class>.java` |
| RunServer.AdvisorFailureKeepsDefaults | server/index.js:60-99 | if the first advisor call fails, the reply has `N/A`, `N/A` and an empty summary; if only the second fails, it has the extracted estimates and an empty summary; the output is reported either way |
| RunServer.AnsweredReply | server/index.js:60-104 | an analysis in the prompted `Time: O(n)` / `Space: O(1)` format yields `O(n)` and `O(1)`, next to the output and the trimmed summary |
| RunServer.ReplyShape | server/index.js:60-106 | `time` and `space` are never empty, and the summary is trimmed |
| DockerExecutor.ImageFor | server/executor.js:34-39 | each language runs in the image `<language>-runner` |
| DockerExecutor.FileName | server/executor.js:17-29 | there is no file name exactly for Java without a public class; a file name is non-empty and has no `/`, so the source lands in the language's folder |
| DockerExecutor.DockerCommand | server/executor.js:41-44 | a `docker run` without input redirection whose last word is the `<language>-runner` image; only Java passes `-e JAVA_FILE=<file>` |
| DockerExecutor.Completion | server/executor.js:46-49 | the callback gets the output exactly when `exec` reports no error; on error it gets stderr, or the error message when stderr is empty |
| DockerExecutor.RunDockerCode | server/executor.js:12-49 | the folder is created first; the call is refused, with nothing else done, exactly for an unknown language or Java without a public class, and then the callback gets an error; otherwise the source is written under its file name and one command runs with a 10 s limit, and the callback is the completion of its outcome |
| DockerExecutor.ImageTable | server/executor.js:34-39 | the image table holds exactly the four languages |
| DockerExecutor.MissingPublicClassRefused | server/executor.js:14-19 | Java without a public class creates `temp/java`, writes and runs nothing, and calls back with the public-class message |
| DockerExecutor.UnknownLanguageRefused | server/executor.js:14-28 | an unknown language creates `temp/<lang>`, writes and runs nothing, and calls back with the unsupported-language message |
| DockerExecutor.AcceptedRun | server/executor.js:12-49 | an accepted call creates the folder, writes the source there under its file name, and runs one container command with a 10 s limit; the callback gets stderr (or the error message when stderr is empty) on failure and stdout on success |
| DockerExecutor.FileNames | server/executor.js:17-29 | the file names are `main.cpp`, `main.c`, `main.py` and `<Class>.java`; only Java's depends on the code |
| DockerExecutor.JavaDockerCommandLine | server/executor.js:41-43 | `docker run --rm -v <folder>:/app -e JAVA_FILE=<file> java-runner` |
| DockerExecutor.OtherDockerCommandLine | server/executor.js:41-44 | `docker run --rm -v <folder>:/app <language>-runner` for the other languages |
| ComplexityGraph.Parse | fe/src/components/ComplexityGraph.tsx:20-28 | a bar is 1, 10, 30, 50 or 100 long; an empty label gives 1 |
| ComplexityGraph.ParseThresholds | fe/src/components/ComplexityGraph.tsx:20-28 | each threshold (100, at least 50, at least 30, at least 10) is reached exactly when the lower-cased label contains one of the patterns at or above it: both directions |
| ComplexityGraph.ParseIgnoresCase | fe/src/components/ComplexityGraph.tsx:22 | the bar does not depend on letter case |
| ComplexityGraph.ParseMonotone | fe/src/components/ComplexityGraph.tsx:20-28 | adding text around a label never shortens its bar |
| ComplexityGraph.ParsePlaceholder | fe/src/components/ComplexityGraph.tsx:25 | the placeholder `N/A` contains an `n`, so it gets the linear 30 |
| ComplexityGraph.ParseConstant | fe/src/components/ComplexityGraph.tsx:26 | `O(1)` gets 10 |
| ComplexityGraph.ParseLogLinear | fe/src/components/ComplexityGraph.tsx:24 | `O(nlogn)` gets 50 |
| ComplexityGraph.ParseSpacedLogLinear | fe/src/components/ComplexityGraph.tsx:24-25 | `O(n log n)`, written with spaces, only gets 30 |
| ComplexityGraph.ParseQuadratic | fe/src/components/ComplexityGraph.tsx:23 | `O(N^2)` and `O(n*n)` get 100 |
| ComplexityGraph.Render | fe/src/components/ComplexityGraph.tsx:44-49 | the panel is shown exactly when it is open; every bar's length is `parse` of its label |
| ComplexityGraph.PanelRows | fe/src/components/ComplexityGraph.tsx:46-88 | the open panel has a Time bar above a Space bar, labelled with the given texts; the caption appears exactly for a non-empty summary |
| ComplexityGraph.PlaceholderPanel | fe/src/components/ComplexityGraph.tsx:44-88 | for a run whose complexity advisor failed (`N/A`, `N/A`, empty summary) both bars read `N/A`, are 30 long, and there is no caption |
| CommentStripper.BlockClose | fe/src/components/AISidebar.tsx:42 | the lazy `[\s\S]*?` stops at the first `*/` after the opening |
| CommentStripper.CommentLength | fe/src/components/AISidebar.tsx:42 | a comment the pattern matches where the scan stands is never empty and never longer than the rest of the text, so the scan always moves on |
| CommentStripper.CommentStarts | fe/src/components/AISidebar.tsx:42 | a comment starts with `/` or `#`; a `#` always starts one, and so does `//`, whose comment does not reach past its line |
| CommentStripper.StripComments | fe/src/components/AISidebar.tsx:42 | stripping never lengthens the text |
| CommentStripper.NoHashLeft | fe/src/components/AISidebar.tsx:42 | no `#` is left in the stripped text |
| CommentStripper.FirstKeptSlash | fe/src/components/AISidebar.tsx:42 | a stripped text that starts with `/` comes from a text that starts with `/` |
| CommentStripper.NoLineCommentLeft | fe/src/components/AISidebar.tsx:42 | no `//` is left, even where deleting a comment brings two kept slashes together |
| CommentStripper.PlainPrefixKept | fe/src/components/AISidebar.tsx:42 | text without `/` or `#` passes through unchanged, whatever follows it |
| CommentStripper.PlainTextKept | fe/src/components/AISidebar.tsx:42 | text without `/` or `#` is unchanged |
| CommentStripper.LoneSlashKept | fe/src/components/AISidebar.tsx:42 | a `/` that starts neither `//` nor `/*` starts no comment: it is kept and the scan moves on by one character |
| CommentStripper.DivisionKept | fe/src/components/AISidebar.tsx:42 | a division such as `a / b` or `x/2`, or the `/` of `</div>`, comes through unchanged |
| CommentStripper.LineCommentDropped | fe/src/components/AISidebar.tsx:42 | `//` and the rest of its line are deleted and the line terminator is kept |
| CommentStripper.HashLineDropped | fe/src/components/AISidebar.tsx:42 | `#` and the rest of its line are deleted, so a C `#include` line is emptied |
| CommentStripper.BlockCommentDropped | fe/src/components/AISidebar.tsx:42 | a block comment is deleted up to its first `*/`, across lines |
| CommentStripper.UnclosedBlockKept | fe/src/components/AISidebar.tsx:42 | an unclosed `/*` is kept, and stripping goes on inside what follows it |
| CommentStripper.CodeBeforeLineComment | fe/src/components/AISidebar.tsx:42 | code ahead of `//` on its line is kept; Python's `a // b` and `"http://..."` are cut there |
| AISidebar.OrDefault | fe/src/components/AISidebar.tsx:68-70 | `value || fallback` is the value when it is present and non-empty, and the fallback exactly otherwise |
| AISidebar.RequestFor | fe/src/components/AISidebar.tsx:28-29 | no request exactly when the content (the prompt for `generate`, the code otherwise) is blank; a request carries the current task and language |
| AISidebar.AnalysisFinished | fe/src/components/AISidebar.tsx:60-78 | loading is cleared, task, prompt and output are untouched, the estimates are never empty, and the panel is shown after a reply or stays as it was after a failure |
| AISidebar.ShownOutput | fe/src/components/AISidebar.tsx:41-47 | the output shown after a request is never empty |
| AISidebar.Sidebar.constructor | fe/src/components/AISidebar.tsx:18-25 | the initial state hooks |
| AISidebar.Sidebar.SelectTask | fe/src/components/AISidebar.tsx:85 | a task button sets the task and nothing else |
| AISidebar.Sidebar.EditPrompt | fe/src/components/AISidebar.tsx:145 | typing sets the prompt and nothing else |
| AISidebar.Sidebar.StartAIRequest | fe/src/components/AISidebar.tsx:27-32 | nothing happens for blank content; otherwise the request is sent, loading is set and the output is cleared |
| AISidebar.Sidebar.FinishAIRequest | fe/src/components/AISidebar.tsx:34-50 | the output comes from the reply, loading is cleared, and `onCodeGenerated` is called as `GeneratedCode` says |
| AISidebar.Sidebar.StartAnalysis | fe/src/components/AISidebar.tsx:53-58 | the analysis starts exactly for non-blank code: loading is set, the panel is hidden and the summary is cleared |
| AISidebar.Sidebar.FinishAnalysis | fe/src/components/AISidebar.tsx:60-78 | the estimates come from the reply or reset to the defaults, and loading is cleared |
| AISidebar.Sidebar.Submit | fe/src/components/AISidebar.tsx:152-154 | a click does nothing while the button is disabled; otherwise it runs the current task's handler |
| AISidebar.RequestContent | fe/src/components/AISidebar.tsx:27-38 | the request carries the prompt for `generate` and the code otherwise; it is sent exactly when that content is not blank |
| AISidebar.LoadingLifecycle | fe/src/components/AISidebar.tsx:27-79 | both handlers set loading at start and clear it at the end, reply or not; the analysis leaves task, prompt and output alone |
| AISidebar.ShownOutputMeaning | fe/src/components/AISidebar.tsx:41-47 | the error text is shown exactly when the request failed; the no-output text exactly when the reply had no code or only comments; otherwise the stripped code |
| AISidebar.GeneratedCodeMeaning | fe/src/components/AISidebar.tsx:45 | `onCodeGenerated` gets the stripped code (or "") for `generate` only, and only when the reply arrived |
| AISidebar.AnalysisOutcome | fe/src/components/AISidebar.tsx:53-78 | a successful analysis shows the panel with the estimates, or `N/A` for absent or empty ones; a failed one resets to `N/A`/`N/A`/"" and the panel stays hidden |
| AISidebar.AnalysisOfServerReply | fe/src/components/AISidebar.tsx:67-71 | against the `/run` handler, the panel shows the server's estimates and summary as sent |
| AISidebar.ShownAsSent | fe/src/components/AISidebar.tsx:67-71 | non-empty estimates are shown as sent |
| AISidebar.AnalysisOfRefusal | fe/src/components/AISidebar.tsx:67-71 | a 400 reply for a refused language opens the panel on `N/A` and `N/A` |
| AISidebar.PanelAfterAnalysis | fe/src/components/AISidebar.tsx:99-108 | under `analyze`, after a successful analysis, the panel shows Time and Space bars of the estimates |
| AISidebar.Capitalize | fe/src/components/AISidebar.tsx:158 | the same text up to letter case, with no small letter first and the rest unchanged |
| AISidebar.ButtonLabel | fe/src/components/AISidebar.tsx:158 | `Working...` while loading; otherwise the task up to letter case, starting with no small letter |
| AISidebar.ButtonDisabled | fe/src/components/AISidebar.tsx:154 | disabled exactly while loading or while `generate` has a blank prompt |
| AISidebar.ButtonLabels | fe/src/components/AISidebar.tsx:158 | the button reads `Working...` while loading, and otherwise the task capitalised: Generate, Optimize, Explain, Test, Analyze |
| AISidebar.ButtonEnabling | fe/src/components/AISidebar.tsx:154 | the button is disabled exactly while loading or while `generate` has a blank prompt; it starts disabled; an enabled `generate` always sends its request |

## Left out

- Processes, files and the network are outside the model. This covers `exec`, `fs.writeFileSync` and `fs.mkdirSync`, the container itself, and the `fetch` calls to the Groq service and to the local server. The outcomes of `exec` and of the service calls are parameters, and the requests are effects or are left out.
- RunServer.Handle: every write and directory creation is taken to succeed. When a write throws, `server/index.js:109-111` answers 500 `{error: "Execution failed", details}` instead; the model has no such reply.
- DockerExecutor.RunDockerCode: every write and directory creation is taken to succeed. When `fs.mkdirSync` or `fs.writeFileSync` throws (`server/executor.js:15`, `:32`), the exception leaves `runDockerCode` and the callback is never called; the model always calls it once.
- Shell word splitting is not modelled. The paths are pasted into the command unquoted, so the shell splits it into the modelled words only when the temporary directory (and, for Java, the class name) has no white space or shell metacharacters. `RunServer.CompiledPlan`'s "only the binary reads the input" and the other command-line lemmas rest on that.
- Timeouts (5 s and 10 s) are recorded as numbers on the command. Killing a process and the partial output of a killed process are not modelled.
- The prompts and the JSON bodies sent to the language model service (`server/index.js:62-95`) are not modelled. Only the reply texts enter the model.
- `path.join` normalisation is not modelled, for any `lang` that it normalises (one containing `..` or `/`, or the values `""` and `.`, for which `path.join` gives the temporary directory itself). `Folder` joins with `/`.
- Non-string JSON fields are not modelled. The client may send a `code` that is not a string (which makes `code.match` throw and answers 500), and the service may reply with a non-string `content`. The model takes every field as a string or as absent.
- Case folding is ASCII-only. `toLowerCase` in `parse` and `toUpperCase` in the button label fold all of Unicode, and the model folds ASCII letters only. For `parse` the answers agree, because no non-ASCII character lowers to a character of its ASCII patterns. For the button this matters only for a task whose first letter is non-ASCII, and the five task values are ASCII.
- The id is `Date.now()`. Two requests in the same millisecond would share files, and concurrency between requests is not modelled.
- React rendering (JSX, styling, the tooltip, the theme), the editor, the header and the output terminal components are not part of this model.
- An exception thrown by `onCodeGenerated` is not modelled. It would send the handler into its `catch` branch, which replaces the output shown with the error text.
- Temporary files are never deleted by the code, and nothing in the model deletes them.

=== FILE: ai_sidebar.dfy ===
/**
 * The comment stripper of the assistant panel (fe/src/components/AISidebar.tsx,
 * line 42): `code.replace(/\/\/.*|\/\*[\s\S]*?\*\/|#.*$/gm, "")`, written as
 * the left-to-right scan a global replace performs. At each position the
 * three alternatives are tried in order; a match is deleted and the scan goes
 * on after it, otherwise the character is kept and the scan moves by one.
 *
 * - `//.*` takes `//` and the rest of the line, but not the line terminator
 *   (`.` does not match one);
 * - `/\*[\s\S]*?\*\/` takes `/` `*` up to the first `*` `/` after it, across
 *   lines; with no closing `*` `/` it fails and the `/` is kept;
 * - `#.*$` takes `#` and the rest of the line; with the `m` flag `$` holds
 *   before every line terminator, where the greedy `.*` stops anyway.
 */
module CommentStripper {
  import opened Wrappers
  import opened Text

  predicate NotLineTerminator(c: char) {
    !IsLineTerminator(c)
  }

  /** The first `*` `/` at or after `from`, if any. */
  function BlockClose(s: string, from: nat): (r: Option<nat>)
    ensures r.Some? ==> from <= r.value && OccursAt(s, "*/", r.value)
    ensures r.Some? ==> forall k :: from <= k < r.value ==> !OccursAt(s, "*/", k)
    ensures r.None? ==> forall k :: from <= k ==> !OccursAt(s, "*/", k)
    decreases |s| - from
  {
    if |s| < from + 2 then None
    else if OccursAt(s, "*/", from) then Some(from)
    else BlockClose(s, from + 1)
  }

  /** The closing `*` `/` is the first one after `from`. */
  lemma {:induction false} BlockCloseIs(s: string, from: nat, j: nat)
    requires from <= j && OccursAt(s, "*/", j)
    requires forall k :: from <= k < j ==> !OccursAt(s, "*/", k)
    ensures BlockClose(s, from) == Some(j)
    decreases j - from
  {
    if from < j {
      BlockCloseIs(s, from + 1, j);
    }
  }

  /** The length of the comment the pattern matches at the start of `s`, if it matches there. */
  function CommentLength(s: string): (r: Option<nat>)
    ensures r.Some? ==> 0 < r.value <= |s|
  {
    if OccursAt(s, "//", 0) then
      assert s[0] == s[..2][0] == '/';
      Some(RunEnd(s, 0, NotLineTerminator))
    else if OccursAt(s, "/*", 0) && BlockClose(s, 2).Some? then
      Some(BlockClose(s, 2).value + 2)
    else if s != [] && s[0] == '#' then
      Some(RunEnd(s, 0, NotLineTerminator))
    else None
  }

  /**
   * A comment starts with `/` or `#`; a `#` always starts one, and so does a
   * `//`, which then does not reach past its line.
   */
  lemma CommentStarts(s: string)
    ensures CommentLength(s).Some? ==> s[0] == '/' || s[0] == '#'
    ensures s != [] && s[0] == '#' ==> CommentLength(s).Some?
    ensures OccursAt(s, "//", 0) ==>
              CommentLength(s).Some? && forall k :: 0 <= k < CommentLength(s).value ==> !IsLineTerminator(s[k])
  {
    if OccursAt(s, "//", 0) {
      assert s[0] == s[..2][0];
    }
  }

  /** The text with every comment the pattern matches deleted. */
  function StripComments(s: string): (r: string)
    ensures |r| <= |s|
    decreases |s|
  {
    if s == [] then []
    else
      match CommentLength(s)
      case Some(n) => StripComments(s[n..])
      case None => [s[0]] + StripComments(s[1..])
  }

  // ---------------------------------------------------------------------
  // Properties
  // ---------------------------------------------------------------------

  /** No `#` is left: each one either starts a deleted line or lies inside a deleted comment. */
  lemma {:induction false} NoHashLeft(s: string)
    ensures '#' !in StripComments(s)
    decreases |s|
  {
    if s != [] {
      match CommentLength(s)
      case Some(n) => NoHashLeft(s[n..]);
      case None => NoHashLeft(s[1..]);
    }
  }

  /** A stripped text that starts with `/` comes from a text that starts with `/`. */
  lemma FirstKeptSlash(s: string)
    requires StripComments(s) != [] && StripComments(s)[0] == '/'
    ensures s[0] == '/'
  {
    if s[0] == '#' {
      assert !OccursAt(s, "//", 0) && !OccursAt(s, "/*", 0) by {
        if |s| >= 2 { assert s[..2][0] == '#'; }
      }
      var n := RunEnd(s, 0, NotLineTerminator);
      if n < |s| {
        TerminatorKept(s[n..]);
      }
      assert false;
    } else if s[0] != '/' {
      NoCommentAt(s);
      assert false;
    }
  }

  /** No `//` is left: a kept `/` is never followed by another, even once the text between them has been deleted. */
  lemma {:induction false} NoLineCommentLeft(s: string)
    ensures !Contains(StripComments(s), "//")
    decreases |s|
  {
    if s != [] {
      match CommentLength(s)
      case Some(n) => NoLineCommentLeft(s[n..]);
      case None =>
        var rest := StripComments(s[1..]);
        NoLineCommentLeft(s[1..]);
        assert ([s[0]] + rest)[1..] == rest;
        if OccursAt([s[0]] + rest, "//", 0) {
          assert rest != [] && rest[0] == '/' by {
            assert ([s[0]] + rest)[..2][1] == '/';
          }
          FirstKeptSlash(s[1..]);
          assert false;
        }
    }
  }

  /** Text without `/` or `#` passes through unchanged, whatever follows it. */
  lemma {:induction false} PlainPrefixKept(p: string, t: string)
    requires forall k :: 0 <= k < |p| ==> p[k] != '/' && p[k] != '#'
    ensures StripComments(p + t) == p + StripComments(t)
    decreases |p|
  {
    if p == [] {
      assert p + t == t;
    } else {
      var s := p + t;
      assert s[0] == p[0];
      NoCommentAt(s);
      assert s[1..] == p[1..] + t;
      PlainPrefixKept(p[1..], t);
      var r := StripComments(t);
      assert [p[0]] + (p[1..] + r) == p + r;
    }
  }

  /** Text without `/` or `#` is left unchanged. */
  lemma PlainTextKept(p: string)
    requires '/' !in p && '#' !in p
    ensures StripComments(p) == p
  {
    PlainPrefixKept(p, []);
    assert p + [] == p;
  }

  /** A character other than `/` and `#` never starts a comment, so it is kept. */
  lemma NoCommentAt(s: string)
    requires s != [] && s[0] != '/' && s[0] != '#'
    ensures CommentLength(s).None?
    ensures StripComments(s) == [s[0]] + StripComments(s[1..])
  {
    if |s| >= 2 {
      assert s[..2][0] == s[0];
    }
  }

  /** A `/` that opens neither `//` nor `/` `*` starts no comment, so it is kept and the scan moves on by one. */
  lemma LoneSlashKept(s: string)
    requires |s| > 0 && s[0] == '/' && !OccursAt(s, "//", 0) && !OccursAt(s, "/*", 0)
    ensures CommentLength(s).None?
    ensures StripComments(s) == "/" + StripComments(s[1..])
  {
  }

  /** A division such as `a / b` or `x/2` survives, as does the `/` of a closing tag such as `</div>`. */
  lemma DivisionKept(a: string, b: string)
    requires '/' !in a && '#' !in a && '/' !in b && '#' !in b
    requires b == [] || b[0] != '*'
    ensures StripComments(a + "/" + b) == a + "/" + b
  {
    var t := "/" + b;
    assert a + "/" + b == a + t;
    PlainPrefixKept(a, t);
    if |t| >= 2 {
      assert t[..2][1] == b[0];
    }
    LoneSlashKept(t);
    assert t[1..] == b;
    PlainTextKept(b);
  }

  /** A line terminator, and whatever follows it, is scanned from the terminator on. */
  lemma TerminatorKept(rest: string)
    requires rest != [] && IsLineTerminator(rest[0])
    ensures StripComments(rest) == [rest[0]] + StripComments(rest[1..])
  {
    NoCommentAt(rest);
  }

  /**
   * `//` and the rest of its line are deleted and the line terminator is
   * kept; this holds for `//` inside string literals and for Python's integer
   * division alike.
   */
  lemma LineCommentDropped(comment: string, rest: string)
    requires forall k :: 0 <= k < |comment| ==> !IsLineTerminator(comment[k])
    requires rest == [] || IsLineTerminator(rest[0])
    ensures StripComments("//" + comment + rest) == StripComments(rest)
    ensures rest != [] ==> StripComments("//" + comment + rest) == [rest[0]] + StripComments(rest[1..])
  {
    var s := "//" + comment + rest;
    var n := 2 + |comment|;
    assert s[..2] == "//";
    forall k | 0 <= k < n ensures NotLineTerminator(s[k]) {
      if k >= 2 { assert s[k] == comment[k - 2]; }
    }
    if rest != [] {
      assert s[n] == rest[0];
      TerminatorKept(rest);
    }
    RunEndIs(s, 0, NotLineTerminator, n);
    assert s[n..] == rest;
  }

  /** `#` and the rest of its line are deleted and the line terminator is kept, so a C `#include` line is emptied. */
  lemma HashLineDropped(line: string, rest: string)
    requires forall k :: 0 <= k < |line| ==> !IsLineTerminator(line[k])
    requires rest == [] || IsLineTerminator(rest[0])
    ensures StripComments("#" + line + rest) == StripComments(rest)
    ensures rest != [] ==> StripComments("#" + line + rest) == [rest[0]] + StripComments(rest[1..])
  {
    var s := "#" + line + rest;
    var n := 1 + |line|;
    assert s[0] == '#';
    assert !OccursAt(s, "//", 0) && !OccursAt(s, "/*", 0) by {
      if |s| >= 2 { assert s[..2][0] == '#'; }
    }
    forall k | 0 <= k < n ensures NotLineTerminator(s[k]) {
      if k >= 1 { assert s[k] == line[k - 1]; }
    }
    if rest != [] {
      assert s[n] == rest[0];
      TerminatorKept(rest);
    }
    RunEndIs(s, 0, NotLineTerminator, n);
    assert s[n..] == rest;
  }

  /** A body without `*` `/` ends at the first `*` `/` after it. */
  lemma ClosedAfterBody(body: string, rest: string)
    requires !Contains(body, "*/")
    ensures BlockClose("/*" + body + "*/" + rest, 2) == Some(2 + |body|)
  {
    var s := "/*" + body + "*/" + rest;
    var j := 2 + |body|;
    assert s[j] == '*' && s[j + 1] == '/';
    CloseMark(s, j);
    ContainsIff(body, "*/");
    forall k | 2 <= k < j ensures !OccursAt(s, "*/", k) {
      CloseMark(s, k);
      if k + 1 < j {
        CloseMark(body, k - 2);
        assert s[k] == body[k - 2] && s[k + 1] == body[k - 1];
      } else {
        assert s[k + 1] == '*';
      }
    }
    BlockCloseIs(s, 2, j);
  }

  /** `*` `/` occurs at `i` exactly when those two characters stand there. */
  lemma CloseMark(s: string, i: nat)
    ensures OccursAt(s, "*/", i) <==> i + 2 <= |s| && s[i] == '*' && s[i + 1] == '/'
  {
    if i + 2 <= |s| {
      assert s[i..i + 2] == [s[i], s[i + 1]];
    }
  }

  /** `/` `*` up to the first `*` `/` after it is deleted, across lines. */
  lemma BlockCommentDropped(body: string, rest: string)
    requires !Contains(body, "*/")
    ensures StripComments("/*" + body + "*/" + rest) == StripComments(rest)
  {
    var s := "/*" + body + "*/" + rest;
    assert s[..2] == "/*";
    ClosedAfterBody(body, rest);
    assert s[2 + |body| + 2..] == rest;
  }

  /** Without `*` `/` in the body, nothing closes a block comment that opens before it. */
  lemma NeverClosed(body: string)
    requires !Contains(body, "*/")
    ensures BlockClose("/*" + body, 2).None?
  {
    var s := "/*" + body;
    ContainsIff(body, "*/");
    forall k | 2 <= k ensures !OccursAt(s, "*/", k) {
      if k + 2 <= |s| {
        assert s[k..k + 2] == body[k - 2..k];
        assert !OccursAt(body, "*/", k - 2);
      }
    }
  }

  /** A `/` `*` that is never closed starts no comment. */
  lemma UnclosedNotComment(s: string)
    requires |s| >= 2 && s[0] == '/' && s[1] == '*' && BlockClose(s, 2).None?
    ensures CommentLength(s).None?
    ensures StripComments(s) == [s[0]] + StripComments(s[1..])
  {
    assert !OccursAt(s, "//", 0);
  }

  /** An unclosed `/` `*` is kept, and the scan goes on inside what would have been the comment. */
  lemma UnclosedBlockKept(body: string)
    requires !Contains(body, "*/")
    ensures StripComments("/*" + body) == "/*" + StripComments(body)
  {
    var s := "/*" + body;
    NeverClosed(body);
    UnclosedNotComment(s);
    var t := s[1..];
    assert t == "*" + body;
    NoCommentAt(t);
    assert t[1..] == body;
  }

  /**
   * Code ahead of a `//` on its line is kept and the rest of the line goes:
   * Python's `q = a // b` keeps `q = a `, and a `"http://..."` literal is cut
   * after `http:`.
   */
  lemma CodeBeforeLineComment(code: string, comment: string, rest: string)
    requires '/' !in code && '#' !in code
    requires forall k :: 0 <= k < |comment| ==> !IsLineTerminator(comment[k])
    requires rest == [] || IsLineTerminator(rest[0])
    ensures StripComments(code + "//" + comment + rest) == code + StripComments(rest)
  {
    var tail := "//" + comment + rest;
    assert code + "//" + comment + rest == code + tail;
    PlainPrefixKept(code, tail);
    LineCommentDropped(comment, rest);
  }
}

/**
 * The assistant panel (fe/src/components/AISidebar.tsx): its React state, the
 * two request handlers that update it around a request to the assistant
 * service, and the submit button.
 *
 * The handlers are asynchronous: each runs its synchronous part, waits for
 * the service, then finishes. The model splits each into a start and a finish
 * method; the reply of the service is a parameter of the finish.
 */
module AISidebar {
  import opened Wrappers
  import opened Text
  import opened CommentStripper
  import ComplexityGraph
  import Process
  import RunServer

  const NoOutputText := "// No AI output."
  const ServerErrorText := "// Error from AI server."
  /** The panel's own default for an estimate that is missing, empty or reset; it matches the server's. */
  const Placeholder := "N/A"

  /** The state hooks of the component, in declaration order. */
  datatype SidebarState = SidebarState(
    task: string,
    prompt: string,
    aiOutput: string,
    isLoading: bool,
    complexityTime: string,
    complexitySpace: string,
    showComplexity: bool,
    complexitySummary: string)

  /** The `useState` initial values. */
  const InitialState := SidebarState("generate", "", "", false, Placeholder, Placeholder, false, "")

  /** The body `{task, content, language}` sent to the assistant service. */
  datatype AIRequest = AIRequest(task: string, content: string, language: string)

  /** The assistant's answer: the fetch or the JSON decoding threw, or the JSON arrived, with or without a `code` text. */
  datatype GenerateReply = GenerateFailed | GenerateAnswered(code: Option<string>)

  /** The analysis answer: the fetch or the JSON decoding threw, or the JSON arrived, each field present or not. */
  datatype AnalyzeReply =
    | AnalyzeFailed
    | AnalyzeAnswered(time: Option<string>, space: Option<string>, summary: Option<string>)

  /** What a click left waiting for the service. */
  datatype Pending = NothingPending | AwaitingCode(request: AIRequest) | AwaitingAnalysis

  /** `value || fallback` on an optional text: the fallback for an absent or empty value. */
  function OrDefault(value: Option<string>, fallback: string): (r: string)
    ensures value.Some? && value.value != "" ==> r == value.value
    ensures value.None? || value.value == "" ==> r == fallback
    ensures r == "" ==> fallback == ""
  {
    if value.Some? && value.value != "" then value.value else fallback
  }

  // ---------------------------------------------------------------------
  // The generate/optimize/explain/test request
  // ---------------------------------------------------------------------

  /** The request a handler call sends: the prompt for `generate`, the editor's code otherwise; none when that text is blank. */
  function RequestFor(st: SidebarState, code: string, language: string): (r: Option<AIRequest>)
    ensures r.None? <==> Blank(if st.task == "generate" then st.prompt else code)
    ensures r.Some? ==> r.value.task == st.task && r.value.language == language
  {
    var content := if st.task == "generate" then st.prompt else code;
    if Trim(content) == "" then None else Some(AIRequest(st.task, content, language))
  }

  /** `data.code?.replace(...)`: the stripped code, absent when the reply has none. */
  function CleanOutput(code: Option<string>): Option<string> {
    match code
    case Some(c) => Some(StripComments(c))
    case None => None
  }

  /** The text `aiOutput` gets once the reply is in. */
  function ShownOutput(reply: GenerateReply): (r: string)
    ensures r != ""
  {
    match reply
    case GenerateFailed => ServerErrorText
    case GenerateAnswered(code) => OrDefault(CleanOutput(code), NoOutputText)
  }

  /** What `onCodeGenerated` receives: for `generate` only, and only when the reply arrived. */
  function GeneratedCode(request: AIRequest, reply: GenerateReply): Option<string> {
    if request.task == "generate" && reply.GenerateAnswered? then
      Some(OrDefault(CleanOutput(reply.code), ""))
    else None
  }

  /** The synchronous part of `handleAIRequest` once the content is not blank. */
  function AIRequestStarted(st: SidebarState): SidebarState {
    st.(isLoading := true, aiOutput := "")
  }

  /** The rest of `handleAIRequest`: the output is set from the reply, then `finally` clears the loading flag. */
  function AIRequestFinished(st: SidebarState, reply: GenerateReply): SidebarState {
    st.(aiOutput := ShownOutput(reply), isLoading := false)
  }

  // ---------------------------------------------------------------------
  // The complexity analysis
  // ---------------------------------------------------------------------

  /** The synchronous part of `handleAnalyzeComplexity` once the code is not blank. */
  function AnalysisStarted(st: SidebarState): SidebarState {
    st.(isLoading := true, showComplexity := false, complexitySummary := "")
  }

  /** The rest of `handleAnalyzeComplexity`: the estimates from the reply or the defaults, then `finally` clears the loading flag. */
  function AnalysisFinished(st: SidebarState, reply: AnalyzeReply): (a: SidebarState)
    ensures !a.isLoading && a.task == st.task && a.prompt == st.prompt && a.aiOutput == st.aiOutput
    ensures a.complexityTime != "" && a.complexitySpace != ""
    ensures a.showComplexity <==> reply.AnalyzeAnswered? || st.showComplexity
  {
    match reply
    case AnalyzeFailed =>
      st.(complexityTime := Placeholder, complexitySpace := Placeholder, complexitySummary := "", isLoading := false)
    case AnalyzeAnswered(time, space, summary) =>
      st.(complexityTime := OrDefault(time, Placeholder), complexitySpace := OrDefault(space, Placeholder),
          complexitySummary := OrDefault(summary, ""), showComplexity := true, isLoading := false)
  }

  /**
   * The JSON body of the `/run` handler, as the panel reads it: a refused
   * language answers `{error}`, which has none of the three fields.
   */
  function FromServer(reply: RunServer.Reply): AnalyzeReply {
    match reply
    case ErrorReply(_, _) => AnalyzeAnswered(None, None, None)
    case RunReply(_, time, space, summary) => AnalyzeAnswered(Some(time), Some(space), Some(summary))
  }

  /** The complexity panel, shown under the `analyze` task once an analysis succeeded. */
  function ShownPanel(st: SidebarState): Option<ComplexityGraph.Panel> {
    if st.task == "analyze" && st.showComplexity then
      ComplexityGraph.Render(true, st.complexityTime, st.complexitySpace, Some(st.complexitySummary))
    else None
  }

  // ---------------------------------------------------------------------
  // The submit button
  // ---------------------------------------------------------------------

  /** `task.charAt(0).toUpperCase() + task.slice(1)`, for ASCII letters. */
  function Capitalize(s: string): (r: string)
    ensures |r| == |s| && Lower(r) == Lower(s)
    ensures s != [] ==> (r[0] < 'a' || 'z' < r[0]) && r[1..] == s[1..]
  {
    if s == [] then [] else [UpperChar(s[0])] + s[1..]
  }

  /** The button text. */
  function ButtonLabel(st: SidebarState): (caption: string)
    ensures st.isLoading ==> caption == "Working..."
    ensures !st.isLoading ==> Lower(caption) == Lower(st.task) && (caption != [] ==> caption[0] < 'a' || 'z' < caption[0])
  {
    if st.isLoading then "Working..." else Capitalize(st.task)
  }

  /** The button is disabled while loading, and for `generate` while the prompt is blank. */
  predicate ButtonDisabled(st: SidebarState)
    ensures ButtonDisabled(st) <==> st.isLoading || (st.task == "generate" && Blank(st.prompt))
  {
    st.isLoading || (st.task == "generate" && Trim(st.prompt) == "")
  }

  // ---------------------------------------------------------------------
  // The component
  // ---------------------------------------------------------------------

  class Sidebar {
    var task: string
    var prompt: string
    var aiOutput: string
    var isLoading: bool
    var complexityTime: string
    var complexitySpace: string
    var showComplexity: bool
    var complexitySummary: string

    function State(): SidebarState
      reads this
    {
      SidebarState(task, prompt, aiOutput, isLoading, complexityTime, complexitySpace, showComplexity, complexitySummary)
    }

    constructor()
      ensures State() == InitialState
    {
      task := "generate";
      prompt := "";
      aiOutput := "";
      isLoading := false;
      complexityTime := Placeholder;
      complexitySpace := Placeholder;
      showComplexity := false;
      complexitySummary := "";
    }

    /** A task button: `setTask(value)`. */
    method SelectTask(value: string)
      modifies this
      ensures State() == old(State()).(task := value)
    {
      task := value;
    }

    /** The prompt box: `setPrompt(text)`. */
    method EditPrompt(text: string)
      modifies this
      ensures State() == old(State()).(prompt := text)
    {
      prompt := text;
    }

    /** `handleAIRequest` up to the `await`: nothing when the content is blank, otherwise loading with the output cleared. */
    method StartAIRequest(code: string, language: string) returns (request: Option<AIRequest>)
      modifies this
      ensures request == RequestFor(old(State()), code, language)
      ensures request.None? ==> State() == old(State())
      ensures request.Some? ==> State() == AIRequestStarted(old(State()))
    {
      ghost var st := State();
      var content := if task == "generate" then prompt else code;
      if Trim(content) == "" {
        request := None;
        assert request == RequestFor(st, code, language);
      } else {
        request := Some(AIRequest(task, content, language));
        assert request == RequestFor(st, code, language);
        isLoading := true;
        aiOutput := "";
        assert State() == AIRequestStarted(st);
      }
    }

    /** `handleAIRequest` after the `await`; returns what `onCodeGenerated` was called with, if it was. */
    method FinishAIRequest(request: AIRequest, reply: GenerateReply) returns (generated: Option<string>)
      modifies this
      ensures generated == GeneratedCode(request, reply)
      ensures State() == AIRequestFinished(old(State()), reply)
    {
      generated := None;
      match reply {
        case GenerateFailed =>
          aiOutput := ServerErrorText;
        case GenerateAnswered(code) =>
          var cleanOutput := CleanOutput(code);
          aiOutput := OrDefault(cleanOutput, NoOutputText);
          if request.task == "generate" {
            generated := Some(OrDefault(cleanOutput, ""));
          }
      }
      isLoading := false;
    }

    /** `handleAnalyzeComplexity` up to the `await`: nothing when the code is blank. */
    method StartAnalysis(code: string) returns (started: bool)
      modifies this
      ensures started <==> !Blank(code)
      ensures State() == if started then AnalysisStarted(old(State())) else old(State())
    {
      started := Trim(code) != "";
      if started {
        isLoading := true;
        showComplexity := false;
        complexitySummary := "";
      }
    }

    /** `handleAnalyzeComplexity` after the `await`. */
    method FinishAnalysis(reply: AnalyzeReply)
      modifies this
      ensures State() == AnalysisFinished(old(State()), reply)
    {
      match reply {
        case AnalyzeFailed =>
          complexityTime := Placeholder;
          complexitySpace := Placeholder;
          complexitySummary := "";
        case AnalyzeAnswered(time, space, summary) =>
          complexityTime := OrDefault(time, Placeholder);
          complexitySpace := OrDefault(space, Placeholder);
          complexitySummary := OrDefault(summary, "");
          showComplexity := true;
      }
      isLoading := false;
    }

    /** A click on the submit button: nothing while it is disabled, otherwise the handler of the current task. */
    method Submit(code: string, language: string) returns (pending: Pending)
      modifies this
      ensures ButtonDisabled(old(State())) ==> pending == NothingPending && State() == old(State())
      ensures !ButtonDisabled(old(State())) && old(task) == "analyze" ==>
                if Blank(code) then pending == NothingPending && State() == old(State())
                else pending == AwaitingAnalysis && State() == AnalysisStarted(old(State()))
      ensures !ButtonDisabled(old(State())) && old(task) != "analyze" ==>
                match RequestFor(old(State()), code, language)
                case None => pending == NothingPending && State() == old(State())
                case Some(request) => pending == AwaitingCode(request) && State() == AIRequestStarted(old(State()))
    {
      if isLoading || (task == "generate" && Trim(prompt) == "") {
        return NothingPending;
      }
      if task == "analyze" {
        var started := StartAnalysis(code);
        pending := if started then AwaitingAnalysis else NothingPending;
      } else {
        var request := StartAIRequest(code, language);
        pending := if request.Some? then AwaitingCode(request.value) else NothingPending;
      }
    }
  }

  // ---------------------------------------------------------------------
  // Properties
  // ---------------------------------------------------------------------

  /**
   * The request carries the prompt for `generate` and the code for the other
   * tasks, with the current task and language, and it is sent exactly when
   * that content is not blank.
   */
  lemma RequestContent(st: SidebarState, code: string, language: string)
    ensures var content := if st.task == "generate" then st.prompt else code;
            && (RequestFor(st, code, language).None? <==> Blank(content))
            && (RequestFor(st, code, language).Some? ==>
                  RequestFor(st, code, language).value == AIRequest(st.task, content, language))
  {
  }

  /**
   * Both handlers set the loading flag when they start and clear it when they
   * finish, whether the service answered or not; nothing else but the fields
   * each handler writes changes.
   */
  lemma LoadingLifecycle(st: SidebarState, reply: GenerateReply, analysis: AnalyzeReply)
    ensures AIRequestStarted(st).isLoading && AnalysisStarted(st).isLoading
    ensures !AIRequestFinished(st, reply).isLoading && !AnalysisFinished(st, analysis).isLoading
    ensures AIRequestFinished(AIRequestStarted(st), reply) == st.(aiOutput := ShownOutput(reply), isLoading := false)
    ensures var a := AnalysisFinished(st, analysis);
            a.task == st.task && a.prompt == st.prompt && a.aiOutput == st.aiOutput
  {
  }

  /**
   * The output shown after a request is never empty: the stripped code, or
   * one of the two fallbacks. A stripped text never contains `//` and both
   * fallbacks do, so a fallback is shown exactly when the reply failed (the
   * error text) or carried no code or nothing but comments (the no-output
   * text).
   */
  lemma ShownOutputMeaning(reply: GenerateReply)
    ensures ShownOutput(reply) != ""
    ensures ShownOutput(reply) == "// Error from AI server." <==> reply.GenerateFailed?
    ensures ShownOutput(reply) == "// No AI output." <==>
            reply.GenerateAnswered? && (reply.code.None? || StripComments(reply.code.value) == "")
    ensures reply.GenerateAnswered? && reply.code.Some? && StripComments(reply.code.value) != "" ==>
            ShownOutput(reply) == StripComments(reply.code.value)
  {
    assert OccursAt(NoOutputText, "//", 0);
    assert OccursAt(ServerErrorText, "//", 0);
    assert NoOutputText != ServerErrorText by {
      assert NoOutputText[3] != ServerErrorText[3];
    }
    if reply.GenerateAnswered? && reply.code.Some? {
      NoLineCommentLeft(reply.code.value);
    }
  }

  /** `onCodeGenerated` receives the stripped code, or "" for none, for `generate` only and only when the reply arrived. */
  lemma GeneratedCodeMeaning(request: AIRequest, reply: GenerateReply)
    ensures GeneratedCode(request, reply).Some? <==> request.task == "generate" && reply.GenerateAnswered?
    ensures request.task == "generate" && reply.GenerateAnswered? ==>
            GeneratedCode(request, reply) == Some(if reply.code.Some? then StripComments(reply.code.value) else "")
  {
  }

  /**
   * A successful analysis shows the panel with the reply's estimates, or "N/A"
   * for absent or empty ones; a failed one resets the estimates to "N/A" and
   * the summary to "", and the panel the start hid stays hidden.
   */
  lemma AnalysisOutcome(st: SidebarState, time: Option<string>, space: Option<string>, summary: Option<string>)
    ensures var a := AnalysisFinished(AnalysisStarted(st), AnalyzeAnswered(time, space, summary));
            && a.showComplexity && !a.isLoading
            && a.complexityTime == (if time.Some? && time.value != "" then time.value else Placeholder)
            && a.complexitySpace == (if space.Some? && space.value != "" then space.value else Placeholder)
            && a.complexitySummary == (if summary.Some? && summary.value != "" then summary.value else "")
    ensures var f := AnalysisFinished(AnalysisStarted(st), AnalyzeFailed);
            && !f.showComplexity && !f.isLoading
            && f.complexityTime == Placeholder && f.complexitySpace == Placeholder && f.complexitySummary == ""
  {
  }

  /**
   * Against the `/run` handler of the server: its estimates are never empty,
   * so the panel shows them as sent, with the summary.
   */
  lemma AnalysisOfServerReply(st: SidebarState, exec: Process.ExecOutcome, advisor: RunServer.AdvisorOutcome)
    ensures var r := RunServer.Respond(exec, advisor);
            var a := AnalysisFinished(st, FromServer(r));
            a.showComplexity && a.complexityTime == r.time && a.complexitySpace == r.space && a.complexitySummary == r.summary
  {
    RunServer.ReplyShape(exec, advisor);
    ShownAsSent(st, RunServer.Respond(exec, advisor));
  }

  /** A reply with non-empty estimates is shown as sent. */
  lemma ShownAsSent(st: SidebarState, r: RunServer.Reply)
    requires r.RunReply? && r.time != "" && r.space != ""
    ensures var a := AnalysisFinished(st, FromServer(r));
            a.showComplexity && a.complexityTime == r.time && a.complexitySpace == r.space && a.complexitySummary == r.summary
  {
  }

  /** A refused language answers without estimates, and the panel opens on "N/A" for both. */
  lemma AnalysisOfRefusal(st: SidebarState, status: nat, error: string)
    ensures var a := AnalysisFinished(st, FromServer(RunServer.ErrorReply(status, error)));
            a.showComplexity && a.complexityTime == Placeholder && a.complexitySpace == Placeholder && a.complexitySummary == ""
  {
  }

  /** Under the `analyze` task, once an analysis succeeded, the panel shows the Time and Space bars of the estimates. */
  lemma PanelAfterAnalysis(st: SidebarState, reply: AnalyzeReply)
    requires st.task == "analyze" && reply.AnalyzeAnswered?
    ensures var a := AnalysisFinished(st, reply);
            && ShownPanel(a).Some?
            && ShownPanel(a).value.bars[0].text == a.complexityTime
            && ShownPanel(a).value.bars[0].value == ComplexityGraph.Parse(a.complexityTime)
            && ShownPanel(a).value.bars[1].text == a.complexitySpace
            && ShownPanel(a).value.bars[1].value == ComplexityGraph.Parse(a.complexitySpace)
  {
    var a := AnalysisFinished(st, reply);
    ComplexityGraph.PanelRows(a.complexityTime, a.complexitySpace, Some(a.complexitySummary));
  }

  /** The button reads the task buttons' labels, or "Working..." while loading. */
  lemma ButtonLabels(st: SidebarState)
    ensures st.isLoading ==> ButtonLabel(st) == "Working..."
    ensures !st.isLoading && st.task == "generate" ==> ButtonLabel(st) == "Generate"
    ensures !st.isLoading && st.task == "optimize" ==> ButtonLabel(st) == "Optimize"
    ensures !st.isLoading && st.task == "explain" ==> ButtonLabel(st) == "Explain"
    ensures !st.isLoading && st.task == "test" ==> ButtonLabel(st) == "Test"
    ensures !st.isLoading && st.task == "analyze" ==> ButtonLabel(st) == "Analyze"
  {
    assert UpperChar('g') == 'G' && UpperChar('o') == 'O' && UpperChar('e') == 'E';
    assert UpperChar('t') == 'T' && UpperChar('a') == 'A';
  }

  /**
   * The button is disabled exactly while loading or while `generate` has a
   * blank prompt, so the panel starts disabled, and an enabled `generate`
   * button always sends its request.
   */
  lemma ButtonEnabling(st: SidebarState, code: string, language: string)
    ensures ButtonDisabled(st) <==> st.isLoading || (st.task == "generate" && Blank(st.prompt))
    ensures ButtonDisabled(InitialState)
    ensures !ButtonDisabled(st) && st.task == "generate" ==> RequestFor(st, code, language).Some?
  {
    assert Blank("");
  }
}

=== FILE: complexity_graph.dfy ===
/**
 * The complexity panel of the editor (fe/src/components/ComplexityGraph.tsx):
 * `parse` turns a complexity label such as `O(n log n)` into a bar length, and
 * the panel, when open, shows one bar for time and one for space.
 *
 * JavaScript's `toLowerCase` folds all of Unicode; the model folds ASCII
 * letters only. No character outside ASCII lowers to one of the characters
 * of the searched patterns, so the answers of `includes` agree.
 */
module ComplexityGraph {
  import opened Wrappers
  import opened Text

  /**
   * `parse`: 1 for the empty label; otherwise, on the lower-cased label, 100
   * for a quadratic mark (`n^2` or `n*n`), else 50 for `nlogn`, else 30 for any
   * `n`, else 10 for a `1`, else 1.
   */
  function Parse(input: string): (r: nat)
    ensures r in {1, 10, 30, 50, 100}
    ensures input == [] ==> r == 1
  {
    if input == [] then 1
    else
      var lower := Lower(input);
      if Contains(lower, "n^2") || Contains(lower, "n*n") then 100
      else if Contains(lower, "nlogn") then 50
      else if Contains(lower, "n") then 30
      else if Contains(lower, "1") then 10
      else 1
  }

  /** The label mentions a quadratic term, ignoring ASCII case. */
  predicate Quadratic(s: string) {
    Contains(Lower(s), "n^2") || Contains(Lower(s), "n*n")
  }

  /** Every pattern that gives a longer bar contains the letter `n`. */
  lemma PatternsMentionN()
    ensures Contains("n^2", "n") && Contains("n*n", "n") && Contains("nlogn", "n")
  {
    assert OccursAt("n^2", "n", 0);
    assert OccursAt("n*n", "n", 0);
    assert OccursAt("nlogn", "n", 0);
  }

  /** The empty text contains no non-empty pattern. */
  lemma EmptyContainsNothing(p: string)
    requires p != []
    ensures !Contains([], p)
  {
  }

  /**
   * Each threshold of the bar is reached exactly when the lower-cased label
   * contains one of the patterns at or above it; the order of the checks in
   * `parse` therefore picks the longest bar whose pattern occurs.
   */
  lemma {:induction false} ParseThresholds(s: string)
    ensures Parse(s) == 100 <==> Quadratic(s)
    ensures Parse(s) >= 50 <==> Quadratic(s) || Contains(Lower(s), "nlogn")
    ensures Parse(s) >= 30 <==> Contains(Lower(s), "n")
    ensures Parse(s) >= 10 <==> Contains(Lower(s), "n") || Contains(Lower(s), "1")
  {
    var lower := Lower(s);
    if s == [] {
      assert lower == [];
      EmptyContainsNothing("n^2");
      EmptyContainsNothing("n*n");
      EmptyContainsNothing("nlogn");
      EmptyContainsNothing("n");
      EmptyContainsNothing("1");
    } else {
      PatternsMentionN();
      if Contains(lower, "n^2") {
        ContainsTransitive(lower, "n^2", "n");
      }
      if Contains(lower, "n*n") {
        ContainsTransitive(lower, "n*n", "n");
      }
      if Contains(lower, "nlogn") {
        ContainsTransitive(lower, "nlogn", "n");
      }
    }
  }

  /** `parse` does not depend on the case of ASCII letters. */
  lemma ParseIgnoresCase(s: string)
    ensures Parse(s) == Parse(Lower(s))
  {
    LowerIdempotent(s);
    assert |Lower(s)| == |s|;
  }

  /** A label with more text around it never gets a shorter bar. */
  lemma {:induction false} ParseMonotone(s: string, before: string, after: string)
    ensures Parse(s) <= Parse(before + s + after)
  {
    var t := before + s + after;
    LowerConcat(before + s, after);
    LowerConcat(before, s);
    assert Lower(t) == Lower(before) + Lower(s) + Lower(after);
    ParseThresholds(s);
    ParseThresholds(t);
    if Contains(Lower(s), "n^2") { ContainsInContext(Lower(s), "n^2", Lower(before), Lower(after)); }
    if Contains(Lower(s), "n*n") { ContainsInContext(Lower(s), "n*n", Lower(before), Lower(after)); }
    if Contains(Lower(s), "nlogn") { ContainsInContext(Lower(s), "nlogn", Lower(before), Lower(after)); }
    if Contains(Lower(s), "n") { ContainsInContext(Lower(s), "n", Lower(before), Lower(after)); }
    if Contains(Lower(s), "1") { ContainsInContext(Lower(s), "1", Lower(before), Lower(after)); }
  }

  /** A pattern with a character that the text lacks does not occur in it. */
  lemma Absent(s: string, p: string, k: nat)
    requires k < |p| && p[k] !in s
    ensures !Contains(s, p)
  {
    if Contains(s, p) {
      ContainsChars(s, p, k);
    }
  }

  /** Which patterns the lowered placeholder `n/a` contains: only `n`. */
  lemma PlaceholderPatterns(s: string)
    requires s == "n/a"
    ensures !Contains(s, "n^2") && !Contains(s, "n*n") && !Contains(s, "nlogn") && Contains(s, "n")
  {
    Absent(s, "n^2", 1);
    Absent(s, "n*n", 1);
    Absent(s, "nlogn", 1);
    assert OccursAt(s, "n", 0);
  }

  /** The placeholder `N/A` mentions `n`, so it gets a 30-long bar, like a linear bound. */
  lemma ParsePlaceholder()
    ensures Parse("N/A") == 30
  {
    assert Lower("N/A") == "n/a";
    PlaceholderPatterns("n/a");
  }

  /** Which patterns the lowered `o(1)` contains: only `1`. */
  lemma ConstantPatterns(s: string)
    requires s == "o(1)"
    ensures !Contains(s, "n^2") && !Contains(s, "n*n") && !Contains(s, "nlogn") && !Contains(s, "n") && Contains(s, "1")
  {
    Absent(s, "n^2", 0);
    Absent(s, "n*n", 0);
    Absent(s, "nlogn", 0);
    Absent(s, "n", 0);
    assert OccursAt(s, "1", 2);
  }

  /** A constant bound gets a 10-long bar. */
  lemma ParseConstant()
    ensures Parse("O(1)") == 10
  {
    assert Lower("O(1)") == "o(1)";
    ConstantPatterns("o(1)");
  }

  /** Which patterns the lowered `o(nlogn)` contains: `nlogn` but no quadratic mark. */
  lemma LogLinearPatterns(s: string)
    requires s == "o(nlogn)"
    ensures !Contains(s, "n^2") && !Contains(s, "n*n") && Contains(s, "nlogn")
  {
    Absent(s, "n^2", 1);
    Absent(s, "n*n", 1);
    ContainsIff(s, "nlogn");
    assert s[2..7] == "nlogn";
  }

  /** `O(nlogn)` gets a 50-long bar. */
  lemma ParseLogLinear()
    ensures Parse("O(nlogn)") == 50
  {
    assert Lower("O(nlogn)") == "o(nlogn)";
    LogLinearPatterns("o(nlogn)");
  }

  /** Which patterns the lowered `o(n log n)` contains: only `n`. */
  lemma SpacedPatterns(s: string)
    requires s == "o(n log n)"
    ensures !Contains(s, "n^2") && !Contains(s, "n*n") && !Contains(s, "nlogn") && Contains(s, "n")
  {
    Absent(s, "n^2", 1);
    Absent(s, "n*n", 1);
    SpacedNoLogLinear(s);
    assert OccursAt(s, "n", 2);
  }

  /** No `n` of `o(n log n)` stands next to an `l`, so `nlogn` does not occur in it. */
  lemma SpacedNoLogLinear(s: string)
    requires s == "o(n log n)"
    ensures !Contains(s, "nlogn")
  {
    forall k | 0 <= k < |s| - 1 ensures s[k] != 'n' || s[k + 1] != 'l' {
      assert k == 0 || k == 1 || k == 2 || k == 3 || k == 4 || k == 5 || k == 6 || k == 7 || k == 8;
    }
    AbsentPair(s, "nlogn");
  }

  /** Written with spaces, `O(n log n)` is only recognised as mentioning `n`. */
  lemma ParseSpacedLogLinear()
    ensures Parse("O(n log n)") == 30
  {
    assert Lower("O(n log n)") == "o(n log n)";
    SpacedPatterns("o(n log n)");
  }

  /** Both spellings of a quadratic bound, in either case, get the full 100-long bar. */
  lemma ParseQuadratic()
    ensures Parse("O(N^2)") == 100
    ensures Parse("O(n*n)") == 100
  {
    assert LowerChar('N') == 'n';
    assert Lower("O(N^2)") == "o(n^2)";
    QuadraticPattern("o(n^2)", "n^2");
    assert Lower("O(n*n)") == "o(n*n)";
    QuadraticPattern("o(n*n)", "n*n");
  }

  /** `o(<mark>)` contains the mark. */
  lemma QuadraticPattern(s: string, mark: string)
    requires |mark| == 3 && s == "o(" + mark + ")"
    ensures Contains(s, mark)
  {
    ContainsIff(s, mark);
    assert s[2..5] == mark;
  }

  /** One bar of the chart: its axis name, its length and the text printed beside it (the `label` key). */
  datatype Bar = Bar(name: string, value: nat, text: string)

  /** What the open panel shows: the bars, top to bottom, and the caption under them, if any. */
  datatype Panel = Panel(bars: seq<Bar>, caption: Option<string>)

  /**
   * The component: nothing while closed; otherwise a Time bar and a Space bar
   * labelled with the given texts, and the summary as caption when it is a
   * non-empty text.
   */
  function Render(isOpen: bool, time: string, space: string, summary: Option<string>): (r: Option<Panel>)
    ensures r.None? <==> !isOpen
    ensures r.Some? ==> forall b :: b in r.value.bars ==> b.value == Parse(b.text) && b.value in {1, 10, 30, 50, 100}
  {
    if !isOpen then None
    else
      var bars := [Bar("Time", Parse(time), time), Bar("Space", Parse(space), space)];
      var caption := if summary.Some? && summary.value != "" then summary else None;
      Some(Panel(bars, caption))
  }

  /**
   * The open panel has exactly two bars, Time above Space, labelled with the
   * given texts; the caption appears exactly when a non-empty summary is given.
   */
  lemma PanelRows(time: string, space: string, summary: Option<string>)
    ensures var p := Render(true, time, space, summary).value;
            && |p.bars| == 2
            && p.bars[0].name == "Time" && p.bars[0].text == time && p.bars[0].value == Parse(time)
            && p.bars[1].name == "Space" && p.bars[1].text == space && p.bars[1].value == Parse(space)
            && (p.caption.Some? <==> summary.Some? && summary.value != "")
            && (p.caption.Some? ==> p.caption == summary)
  {
  }

  /**
   * The panel for a run whose complexity advisor failed (the server answers
   * "N/A" for both estimates and an empty summary): both bars read the
   * placeholder and are 30 long, and there is no caption.
   */
  lemma PlaceholderPanel()
    ensures Render(true, "N/A", "N/A", Some("")) == Some(Panel([Bar("Time", 30, "N/A"), Bar("Space", 30, "N/A")], None))
  {
    ParsePlaceholder();
  }
}

=== FILE: docker_executor.dfy ===
/**
 * The container runner (server/executor.js): `runDockerCode(code, lang,
 * callback)` creates `temp/<lang>`, writes the source under the file name the
 * language's runner image expects, runs the image with that folder mounted on
 * `/app`, and calls `callback` exactly once: with an error text, or with
 * `null` and the captured standard output.
 *
 * The file system and the `docker` process are not part of the model: the
 * temporary directory and the process outcome are parameters, and the
 * directory creation, the write and the command are returned as effects.
 */
module DockerExecutor {
  import opened Wrappers
  import opened Text
  import opened Languages
  import opened Process
  import JavaSource

  /** Kill the container run after 10 seconds. */
  const DockerTimeoutMs: nat := 10000
  const MissingClassMessage := "\U{274C} Java code must contain a `public class`."
  const UnsupportedMessage := "\U{274C} Unsupported language."

  /** The runner image of each language. */
  const ImageMap: map<string, string> :=
    map["java" := "java-runner", "cpp" := "cpp-runner", "c" := "c-runner", "python" := "python-runner"]

  /** The arguments `callback` is called with: `callback(message)` or `callback(null, stdout)`. */
  datatype Callback = CallbackError(message: string) | CallbackOutput(stdout: string)

  /** Everything one call does: its effects in order and its single callback. */
  datatype DockerRun = DockerRun(effects: seq<Effect>, callback: Callback)

  /** `path.join(TEMP_DIR, lang)`: one folder per language, shared by every call for that language. */
  function Folder(tempDir: string, lang: string): string {
    tempDir + "/" + lang
  }

  /** The image a supported language runs in: `<language>-runner`. */
  function ImageFor(lang: Language): (image: string)
    ensures Name(lang) in ImageMap && image == ImageMap[Name(lang)]
    ensures image == Name(lang) + "-runner"
  {
    ImageMap[Name(lang)]
  }

  /** The file name of the source: `<ClassName>.java` for Java, `main.<ext>` otherwise; none for Java without a public class. */
  function FileName(lang: Language, code: string): (r: Option<string>)
    ensures r.None? <==> lang == Java && JavaSource.GetPublicClassName(code).None?
    ensures r.Some? ==> r.value != [] && forall k :: 0 <= k < |r.value| ==> r.value[k] != '/'
  {
    match lang
    case Java =>
      (match JavaSource.GetPublicClassName(code)
       case Some(className) =>
         JavaFileInFolder(className);
         Some(className + ".java")
       case None => None)
    case Cpp => Some("main.cpp")
    case C => Some("main.c")
    case Python => Some("main.py")
  }

  /** A class name made of word characters gives a `.java` file name without a path separator. */
  lemma JavaFileInFolder(className: string)
    requires forall k :: 0 <= k < |className| ==> IsWordChar(className[k])
    ensures forall k :: 0 <= k < |className + ".java"| ==> (className + ".java")[k] != '/'
  {
    var f := className + ".java";
    forall k | 0 <= k < |f| ensures f[k] != '/' {
      if k < |className| {
        assert f[k] == className[k];
      } else {
        assert f[k] in ".java";
      }
    }
  }

  /** `docker run --rm -v <folder>:/app [-e JAVA_FILE=<file>] <image>`; only Java passes its file name. */
  function DockerCommand(lang: Language, folder: string, fileName: string): (c: SimpleCommand)
    ensures c.stdin.None? && |c.words| >= 6 && c.words[..2] == ["docker", "run"]
    ensures c.words[|c.words| - 1] == Name(lang) + "-runner"
    ensures |c.words| == 8 <==> lang == Java
    ensures lang == Java ==> c.words[5..7] == ["-e", "JAVA_FILE=" + fileName]
  {
    SimpleCommand(["docker", "run", "--rm", "-v", folder + ":/app"]
                  + (if lang == Java then ["-e", "JAVA_FILE=" + fileName] else [])
                  + [ImageFor(lang)], None)
  }

  /** The callback once the container has finished: the standard error, or the error message when that is empty; otherwise the output. */
  function Completion(exec: ExecOutcome): (cb: Callback)
    ensures cb.CallbackOutput? <==> exec.error.None?
    ensures cb.CallbackOutput? ==> cb.stdout == exec.stdout
    ensures exec.error.Some? && exec.stderr != "" ==> cb == CallbackError(exec.stderr)
    ensures exec.error.Some? && exec.stderr == "" ==> cb == CallbackError(exec.error.value)
  {
    match exec.error
    case Some(message) => CallbackError(if exec.stderr != "" then exec.stderr else message)
    case None => CallbackOutput(exec.stdout)
  }

  /**
   * `runDockerCode`: the folder is created before anything is checked; a Java
   * source without a public class and an unknown language are refused with
   * their message and nothing else happens; otherwise the source is written
   * and the container run, and `exec` decides the callback.
   */
  function RunDockerCode(code: string, lang: string, tempDir: string, exec: ExecOutcome): (r: DockerRun)
    ensures r.effects != [] && r.effects[0] == MakeDirs(Folder(tempDir, lang))
    ensures |r.effects| == 1 <==> ParseLanguage(lang).None? || FileName(ParseLanguage(lang).value, code).None?
    ensures |r.effects| == 1 ==> r.callback.CallbackError?
    ensures |r.effects| != 1 ==>
              && |r.effects| == 3 && r.effects[1].WriteFile? && r.effects[1].contents == code
              && r.effects[1].path == Folder(tempDir, lang) + "/" + FileName(ParseLanguage(lang).value, code).value
              && r.effects[2].Exec? && |r.effects[2].command| == 1 && r.effects[2].timeoutMs == DockerTimeoutMs
              && r.callback == Completion(exec)
  {
    var folder := Folder(tempDir, lang);
    match ParseLanguage(lang)
    case None => DockerRun([MakeDirs(folder)], CallbackError(UnsupportedMessage))
    case Some(l) =>
      match FileName(l, code)
      case None => DockerRun([MakeDirs(folder)], CallbackError(MissingClassMessage))
      case Some(fileName) =>
        DockerRun([MakeDirs(folder),
                   WriteFile(folder + "/" + fileName, code),
                   Exec([DockerCommand(l, folder, fileName)], DockerTimeoutMs)],
                  Completion(exec))
  }

  // ---------------------------------------------------------------------
  // Properties
  // ---------------------------------------------------------------------

  /** The image table holds exactly the four languages, each mapped to `<language>-runner`. */
  lemma ImageTable()
    ensures ImageMap.Keys == {"java", "cpp", "c", "python"}
    ensures forall l :: ImageMap[Name(l)] == Name(l) + "-runner"
  {
    forall l: Language ensures ImageMap[Name(l)] == Name(l) + "-runner" {
      var _ := ImageFor(l);
    }
  }

  /** Java without a public class: the folder is created, nothing is written or run, and the callback gets the refusal. */
  lemma MissingPublicClassRefused(code: string, tempDir: string, exec: ExecOutcome)
    requires JavaSource.GetPublicClassName(code).None?
    ensures RunDockerCode(code, "java", tempDir, exec) ==
            DockerRun([MakeDirs(tempDir + "/java")], CallbackError("\U{274C} Java code must contain a `public class`."))
  {
    assert ParseLanguage("java") == Some(Java);
    assert FileName(Java, code) == None;
    assert Folder(tempDir, "java") == tempDir + "/java";
    assert MissingClassMessage == "\U{274C} Java code must contain a `public class`.";
  }

  /** An unknown language: the folder `temp/<lang>` is created all the same, nothing is written or run, and the callback gets the refusal. */
  lemma UnknownLanguageRefused(code: string, lang: string, tempDir: string, exec: ExecOutcome)
    requires lang !in {"python", "cpp", "c", "java"}
    ensures RunDockerCode(code, lang, tempDir, exec) ==
            DockerRun([MakeDirs(tempDir + "/" + lang)], CallbackError("\U{274C} Unsupported language."))
  {
  }

  /**
   * A call that is not refused creates `temp/<lang>`, writes the source there
   * under its file name, runs exactly one command with a 10 second limit, and
   * hands the callback the standard error (or the error message when that is
   * empty) on failure and the standard output on success.
   */
  lemma AcceptedRun(code: string, lang: Language, tempDir: string, exec: ExecOutcome)
    requires FileName(lang, code).Some?
    ensures var r := RunDockerCode(code, Name(lang), tempDir, exec);
            var folder := tempDir + "/" + Name(lang);
            && r.effects == [MakeDirs(folder),
                             WriteFile(folder + "/" + FileName(lang, code).value, code),
                             Exec([DockerCommand(lang, folder, FileName(lang, code).value)], 10000)]
            && (exec.error.Some? && exec.stderr != "" ==> r.callback == CallbackError(exec.stderr))
            && (exec.error.Some? && exec.stderr == "" ==> r.callback == CallbackError(exec.error.value))
            && (exec.error.None? ==> r.callback == CallbackOutput(exec.stdout))
  {
    ParseName(lang);
  }

  /**
   * File names: `main.cpp`, `main.c`, `main.py`, and `<ClassName>.java` for the
   * public class a Java source declares. None depends on anything but the
   * language and, for Java, the class, so every call for one language (and one
   * class) writes the same file in the same folder.
   */
  lemma FileNames(code: string, otherCode: string)
    ensures FileName(Cpp, code) == Some("main.cpp")
    ensures FileName(C, code) == Some("main.c")
    ensures FileName(Python, code) == Some("main.py")
    ensures JavaSource.GetPublicClassName(code).Some? ==>
            FileName(Java, code) == Some(JavaSource.GetPublicClassName(code).value + ".java")
    ensures JavaSource.GetPublicClassName(code).None? ==> FileName(Java, code).None?
    ensures forall l :: l != Java ==> FileName(l, code) == FileName(l, otherCode)
  {
  }

  /** The mount prefix `docker run --rm -v <folder>:/app` ahead of the remaining words. */
  lemma MountPrefix(folder: string, rest: seq<string>)
    requires rest != []
    ensures Join(["docker", "run", "--rm", "-v", folder + ":/app"] + rest, " ") ==
            "docker run --rm -v " + folder + ":/app " + Join(rest, " ")
  {
    var head := ["docker", "run", "--rm", "-v"];
    assert Join(head, " ") == "docker run --rm -v";
    JoinCons(folder + ":/app", rest, " ");
    JoinAppend(head, [folder + ":/app"] + rest, " ");
    assert ["docker", "run", "--rm", "-v", folder + ":/app"] + rest == head + ([folder + ":/app"] + rest);
  }

  /** The shell text of the Java container command, which names the source file. */
  lemma JavaDockerCommandLine(folder: string, fileName: string)
    ensures CommandLine([DockerCommand(Java, folder, fileName)]) ==
            "docker run --rm -v " + folder + ":/app -e JAVA_FILE=" + fileName + " java-runner"
  {
    var image := ImageFor(Java);
    var rest := ["-e", "JAVA_FILE=" + fileName, image];
    EnvWords("JAVA_FILE=" + fileName, image);
    MountPrefix(folder, rest);
    assert DockerCommand(Java, folder, fileName).words == ["docker", "run", "--rm", "-v", folder + ":/app"] + rest;
  }

  /** `-e <setting> <image>` as shell words. */
  lemma EnvWords(setting: string, image: string)
    ensures Join(["-e", setting, image], " ") == "-e " + setting + " " + image
  {
    JoinPair(setting, image, " ");
    JoinCons("-e", [setting, image], " ");
    assert ["-e"] + [setting, image] == ["-e", setting, image];
  }

  /** The shell text of the container command for the other languages: the image alone follows the mount. */
  lemma OtherDockerCommandLine(lang: Language, folder: string, fileName: string)
    requires lang != Java
    ensures CommandLine([DockerCommand(lang, folder, fileName)]) ==
            "docker run --rm -v " + folder + ":/app " + Name(lang) + "-runner"
  {
    var image := ImageFor(lang);
    MountPrefix(folder, [image]);
    assert DockerCommand(lang, folder, fileName).words == ["docker", "run", "--rm", "-v", folder + ":/app"] + [image];
  }
}

=== FILE: java_source.dfy ===
/**
 * The public class name of a Java source text: the first capture of
 * `/public\s+class\s+(\w+)/` under `String.prototype.match`, written as a
 * scanner. Both servers use this pattern: the `/run` handler for its source
 * file name and class to launch, the container runner to refuse Java without
 * a public class.
 */
module JavaSource {
  import opened Wrappers
  import opened Text

  /**
   * The pattern tried at position `i`. The first `\s+` must end where `class`
   * starts and the second where the identifier starts, and neither `c` nor a
   * word character is white space, so each `\s+` takes its whole run; `\w+`
   * is greedy and nothing follows it, so the capture is the whole word run.
   */
  function ClassNameAt(code: string, i: nat): (r: Option<string>)
    ensures r.Some? ==> r.value != [] && forall k :: 0 <= k < |r.value| ==> IsWordChar(r.value[k])
  {
    if !OccursAt(code, "public", i) then None
    else
      var a := RunEnd(code, i + 6, IsSpace);
      if a == i + 6 || !OccursAt(code, "class", a) then None
      else
        var b := RunEnd(code, a + 5, IsSpace);
        if b == a + 5 then None
        else
          var e := RunEnd(code, b, IsWordChar);
          if e == b then None else Some(code[b..e])
  }

  /**
   * The regular expression's own reading of a match at `i`: `public`, a
   * non-empty run of white space up to `a`, `class`, a non-empty run of white
   * space up to `b`, then `name`, a non-empty run of word characters not
   * followed by another word character.
   */
  ghost predicate DeclarationAt(code: string, i: nat, a: nat, b: nat, name: string) {
    && OccursAt(code, "public", i)
    && i + 6 < a
    && OccursAt(code, "class", a)
    && (forall k :: i + 6 <= k < a ==> IsSpace(code[k]))
    && a + 5 < b
    && name != []
    && OccursAt(code, name, b)
    && (forall k :: a + 5 <= k < b ==> IsSpace(code[k]))
    && (forall k :: 0 <= k < |name| ==> IsWordChar(name[k]))
    && (b + |name| == |code| || !IsWordChar(code[b + |name|]))
  }

  /** A declaration at `i` is what the scanner finds at `i`. */
  lemma ClassNameAtDeclaration(code: string, i: nat, a: nat, b: nat, name: string)
    requires DeclarationAt(code, i, a, b, name)
    ensures ClassNameAt(code, i) == Some(name)
  {
    DeclarationRuns(code, i, a, b, name);
    ScanSteps(code, i, a, b, b + |name|);
  }

  /** In a declaration, the scanner's three runs end at `a`, at `b` and right after `name`. */
  lemma DeclarationRuns(code: string, i: nat, a: nat, b: nat, name: string)
    requires DeclarationAt(code, i, a, b, name)
    ensures RunEnd(code, i + 6, IsSpace) == a
    ensures RunEnd(code, a + 5, IsSpace) == b
    ensures RunEnd(code, b, IsWordChar) == b + |name| && code[b..b + |name|] == name
  {
    SpaceRunEnds(code, i + 6, a, "class");
    SpaceRunEnds(code, a + 5, b, name);
    WordRunEnds(code, b, name);
  }

  /** The scanner's steps at `i`, each run ending where it is given to end. */
  lemma ScanSteps(code: string, i: nat, a: nat, b: nat, e: nat)
    requires OccursAt(code, "public", i)
    requires i + 6 <= |code| && RunEnd(code, i + 6, IsSpace) == a && a != i + 6 && OccursAt(code, "class", a)
    requires a + 5 <= |code| && RunEnd(code, a + 5, IsSpace) == b && b != a + 5
    requires RunEnd(code, b, IsWordChar) == e && e != b
    ensures ClassNameAt(code, i) == Some(code[b..e])
  {
  }

  /** A run of white space that stops where a non-empty word `w` starts ends there. */
  lemma SpaceRunEnds(code: string, from: nat, to: nat, w: string)
    requires from <= to && w != [] && OccursAt(code, w, to) && !IsSpace(w[0])
    requires forall k :: from <= k < to ==> IsSpace(code[k])
    ensures RunEnd(code, from, IsSpace) == to
  {
    assert code[to] == code[to..to + |w|][0];
    RunEndIs(code, from, IsSpace, to);
  }

  /** The word run at `b` is exactly `name` when `name` is made of word characters and is not followed by one. */
  lemma WordRunEnds(code: string, b: nat, name: string)
    requires OccursAt(code, name, b)
    requires forall k :: 0 <= k < |name| ==> IsWordChar(name[k])
    requires b + |name| == |code| || !IsWordChar(code[b + |name|])
    ensures RunEnd(code, b, IsWordChar) == b + |name|
  {
    forall k | b <= k < b + |name| ensures IsWordChar(code[k]) {
      assert code[k] == code[b..b + |name|][k - b];
    }
    RunEndIs(code, b, IsWordChar, b + |name|);
  }

  /** The scanner agrees with the declarative reading, in both directions. */
  lemma ClassNameAtMeaning(code: string, i: nat, name: string)
    ensures ClassNameAt(code, i) == Some(name) <==> exists a: nat, b: nat :: DeclarationAt(code, i, a, b, name)
  {
    if ClassNameAt(code, i) == Some(name) {
      var a := RunEnd(code, i + 6, IsSpace);
      var b := RunEnd(code, a + 5, IsSpace);
      assert DeclarationAt(code, i, a, b, name);
    }
    if a: nat, b: nat :| DeclarationAt(code, i, a, b, name) {
      ClassNameAtDeclaration(code, i, a, b, name);
    }
  }

  /** `getPublicClassName(code)`: the capture of the leftmost match, or none when the pattern does not occur. */
  function GetPublicClassName(code: string): (r: Option<string>)
    ensures r.None? ==> forall i: nat :: i <= |code| ==> ClassNameAt(code, i).None?
    ensures r.Some? ==> exists i: nat :: i <= |code| && LeftmostAt((k: nat) => ClassNameAt(code, k), 0, i) && r == ClassNameAt(code, i)
    ensures r.Some? ==> r.value != [] && forall k :: 0 <= k < |r.value| ==> IsWordChar(r.value[k])
  {
    var m := (k: nat) => ClassNameAt(code, k);
    assert forall k: nat :: m(k) == ClassNameAt(code, k);
    FirstMatch(m, 0, |code|)
  }

  /**
   * A source that opens with `public class <name>` declares `name`, whatever
   * white space separates the words and whatever follows the name (as long as
   * it does not continue the identifier).
   */
  lemma {:induction false} DeclaredClassFound(ws1: string, ws2: string, name: string, rest: string)
    requires ws1 != [] && Blank(ws1) && ws2 != [] && Blank(ws2)
    requires name != [] && forall k :: 0 <= k < |name| ==> IsWordChar(name[k])
    requires rest == [] || !IsWordChar(rest[0])
    ensures GetPublicClassName("public" + ws1 + "class" + ws2 + name + rest) == Some(name)
  {
    var code := "public" + ws1 + "class" + ws2 + name + rest;
    var a := 6 + |ws1|;
    var b := a + 5 + |ws2|;
    assert code[..6] == "public";
    assert code[a..a + 5] == "class";
    assert code[b..b + |name|] == name;
    forall k | 6 <= k < a ensures IsSpace(code[k]) {
      assert code[k] == ws1[k - 6];
    }
    forall k | a + 5 <= k < b ensures IsSpace(code[k]) {
      assert code[k] == ws2[k - a - 5];
    }
    assert b + |name| == |code| || !IsWordChar(code[b + |name|]) by {
      if b + |name| < |code| {
        assert code[b + |name|] == rest[0];
      }
    }
    ClassNameAtDeclaration(code, 0, a, b, name);
    assert ClassNameAt(code, 0).Some?;
  }

  /** Without the word `public` anywhere there is no public class. */
  lemma NoPublicNoClass(code: string)
    requires !Contains(code, "public")
    ensures GetPublicClassName(code).None?
  {
    ContainsIff(code, "public");
    forall i: nat ensures ClassNameAt(code, i).None? {
      assert !OccursAt(code, "public", i);
    }
  }
}

=== FILE: languages.dfy ===
/** The languages both servers accept, and the names clients send for them. */
module Languages {
  import opened Wrappers

  datatype Language = Python | Cpp | C | Java

  /** The value of the request's `language` field that selects `l`. */
  function Name(l: Language): string {
    match l
    case Python => "python"
    case Cpp => "cpp"
    case C => "c"
    case Java => "java"
  }

  /**
   * The language a request's `language` field selects, by strict equality with
   * one of the four names; any other value selects none.
   */
  function ParseLanguage(s: string): (r: Option<Language>)
    ensures r.Some? ==> Name(r.value) == s
    ensures r.None? <==> s !in {"python", "cpp", "c", "java"}
  {
    if s == "python" then Some(Python)
    else if s == "cpp" then Some(Cpp)
    else if s == "c" then Some(C)
    else if s == "java" then Some(Java)
    else None
  }

  /** Naming a language and parsing the name gives the language back. */
  lemma ParseName(l: Language)
    ensures ParseLanguage(Name(l)) == Some(l)
  {
  }
}

=== FILE: process.dfy ===
/**
 * What the servers ask of the operating system, recorded as values: shell
 * commands built from simple commands chained with `&&`, the side effects a
 * request performs in order, and the outcome `child_process.exec` reports.
 */
module Process {
  import opened Wrappers

  /** One simple command: its words, and the file its standard input is redirected from, if any. */
  datatype SimpleCommand = SimpleCommand(words: seq<string>, stdin: Option<string>)

  /** A side effect, in the order a handler performs it. */
  datatype Effect =
    | MakeDirs(path: string)                                  // fs.mkdirSync(path, { recursive: true })
    | WriteFile(path: string, contents: string)               // fs.writeFileSync(path, contents)
    | Exec(command: seq<SimpleCommand>, timeoutMs: nat)       // exec(CommandLine(command), { timeout })

  /**
   * What `exec` hands its callback: `error` is the message of the `err`
   * argument when the command failed (non-zero exit, killed on timeout, could
   * not start), and the captured standard output and error streams.
   */
  datatype ExecOutcome = ExecOutcome(error: Option<string>, stdout: string, stderr: string)

  /** The words joined by `sep`. */
  function Join(words: seq<string>, sep: string): string
    decreases |words|
  {
    if words == [] then ""
    else if |words| == 1 then words[0]
    else words[0] + sep + Join(words[1..], sep)
  }

  /** Joining a word onto the front of a non-empty list puts one separator between them. */
  lemma JoinCons(w: string, words: seq<string>, sep: string)
    requires words != []
    ensures Join([w] + words, sep) == w + sep + Join(words, sep)
  {
    assert ([w] + words)[1..] == words;
  }

  /** Joining two non-empty lists end to end puts one separator between their joins. */
  lemma {:induction false} JoinAppend(xs: seq<string>, ys: seq<string>, sep: string)
    requires xs != [] && ys != []
    ensures Join(xs + ys, sep) == Join(xs, sep) + sep + Join(ys, sep)
    decreases |xs|
  {
    if |xs| == 1 {
      assert xs + ys == [xs[0]] + ys;
      JoinCons(xs[0], ys, sep);
    } else {
      assert xs + ys == [xs[0]] + (xs[1..] + ys);
      JoinCons(xs[0], xs[1..] + ys, sep);
      JoinAppend(xs[1..], ys, sep);
      assert xs == [xs[0]] + xs[1..];
      JoinCons(xs[0], xs[1..], sep);
    }
  }

  lemma JoinPair(a: string, b: string, sep: string)
    ensures Join([a, b], sep) == a + sep + b
  {
    JoinCons(a, [b], sep);
    assert [a] + [b] == [a, b];
  }

  /** A simple command as shell text: `w1 w2 ... [< file]`. */
  function Render(c: SimpleCommand): string {
    Join(c.words, " ") + (match c.stdin case Some(f) => " < " + f case None => "")
  }

  /** The shell text of a chain of simple commands: `c1 && c2 && ...`. */
  function CommandLine(steps: seq<SimpleCommand>): string
    decreases |steps|
  {
    if steps == [] then ""
    else if |steps| == 1 then Render(steps[0])
    else Render(steps[0]) + " && " + CommandLine(steps[1..])
  }

  /** Two commands chained: `c1 && c2`. */
  lemma CommandLinePair(c1: SimpleCommand, c2: SimpleCommand)
    ensures CommandLine([c1, c2]) == Render(c1) + " && " + Render(c2)
  {
    assert [c1, c2][1..] == [c2];
  }

  /**
   * How many commands of an `&&` chain the shell starts, when the k-th command
   * would exit with status `exits[k]`: each one starts only if the one before
   * exited with status 0.
   */
  function StepsStarted(exits: seq<int>): (n: nat)
    ensures n <= |exits|
    ensures exits != [] ==> n >= 1
    decreases |exits|
  {
    if exits == [] then 0
    else if exits[0] != 0 then 1
    else 1 + StepsStarted(exits[1..])
  }

  /** The k-th command of an `&&` chain starts exactly when every earlier one succeeded. */
  lemma {:induction false} AndChainStarts(exits: seq<int>, k: nat)
    requires k < |exits|
    ensures k < StepsStarted(exits) <==> forall j :: 0 <= j < k ==> exits[j] == 0
    decreases |exits|
  {
    if k > 0 && exits[0] == 0 {
      AndChainStarts(exits[1..], k - 1);
      assert (forall j :: 0 <= j < k - 1 ==> exits[1..][j] == 0) <==> (forall j :: 1 <= j < k ==> exits[j] == 0) by {
        forall j | 1 <= j < k ensures exits[1..][j - 1] == exits[j] { }
      }
    }
  }
}

=== FILE: run_server.dfy ===
/**
 * The `/run` handler of the playground server (server/index.js): from a
 * request `{code, language, input}` and the request id (the millisecond clock
 * reading), the files it writes into the shared temporary directory and the
 * shell command it runs; from the command's outcome and the complexity
 * advisor's replies, the JSON it answers with.
 *
 * The clock, the file system, the process and the two calls to the language
 * model service are not part of the model: the id, the temporary directory,
 * the process outcome and the advisor's reply texts are parameters, and the
 * writes and the command are returned as a list of effects.
 */
module RunServer {
  import opened Wrappers
  import opened Text
  import opened Languages
  import opened Process
  import JavaSource

  /** Kill the command after 5 seconds. */
  const RunTimeoutMs: nat := 5000
  /** The value `time` and `space` keep when no estimate was extracted. */
  const Placeholder := "N/A"
  const UnsupportedLanguageError := "Unsupported language"

  /** The request body; `input` is absent when the client did not send it. */
  datatype RunRequest = RunRequest(code: string, language: string, input: Option<string>)

  /** The JSON body the handler answers with, and its HTTP status. */
  datatype Reply =
    | ErrorReply(status: nat, error: string)
    | RunReply(output: string, time: string, space: string, summary: string)

  /** What the handler does before the command finishes: its effects in order, and whether it refused the language. */
  datatype Plan = Plan(effects: seq<Effect>, rejected: bool)

  /**
   * What the complexity advisor gave back: the first call (asking for
   * `Time: O(...)` and `Space: O(...)`) threw; or it answered with the content
   * of its first choice (absent when the reply had none) and the second call
   * (asking for a one-line summary) threw; or both answered.
   */
  datatype AdvisorOutcome =
    | AnalysisFailed
    | SummaryFailed(analysis: Option<string>)
    | Answered(analysis: Option<string>, summary: Option<string>)

  /** Everything one request does: its effects in order and its reply. */
  datatype Handled = Handled(effects: seq<Effect>, reply: Reply)

  // ---------------------------------------------------------------------
  // File names and commands
  // ---------------------------------------------------------------------

  function InputPath(tempDir: string, id: nat): string {
    tempDir + "/input-" + DecimalString(id) + ".txt"
  }

  /** The compiled binary of a C or C++ request. */
  function BinaryPath(tempDir: string, id: nat): string {
    tempDir + "/code-" + DecimalString(id) + ".out"
  }

  /** The public class of a Java request, or `Main<id>` when the source declares none. */
  function JavaClassName(code: string, id: nat): string {
    JavaSource.GetPublicClassName(code).GetOr("Main" + DecimalString(id))
  }

  function SourcePath(lang: Language, code: string, id: nat, tempDir: string): string {
    match lang
    case Python => tempDir + "/code-" + DecimalString(id) + ".py"
    case Cpp => tempDir + "/code-" + DecimalString(id) + ".cpp"
    case C => tempDir + "/code-" + DecimalString(id) + ".c"
    case Java => tempDir + "/" + JavaClassName(code, id) + ".java"
  }

  /** The command chain for a supported language; only its last command reads the input file. */
  function Pipeline(lang: Language, code: string, id: nat, tempDir: string): (r: seq<SimpleCommand>)
    ensures 1 <= |r| <= 2 && (|r| == 1 <==> lang == Python)
    ensures |r[0].words| >= 2 && r[0].words[1] == SourcePath(lang, code, id, tempDir)
    ensures r[|r| - 1].stdin == Some(InputPath(tempDir, id))
    ensures forall k :: 0 <= k < |r| - 1 ==> r[k].stdin.None?
  {
    var src := SourcePath(lang, code, id, tempDir);
    var inputFile := InputPath(tempDir, id);
    match lang
    case Python =>
      [SimpleCommand(["python3", src], Some(inputFile))]
    case Cpp =>
      [SimpleCommand(["g++", src, "-o", BinaryPath(tempDir, id)], None),
       SimpleCommand([BinaryPath(tempDir, id)], Some(inputFile))]
    case C =>
      [SimpleCommand(["gcc", src, "-o", BinaryPath(tempDir, id)], None),
       SimpleCommand([BinaryPath(tempDir, id)], Some(inputFile))]
    case Java =>
      [SimpleCommand(["javac", src], None),
       SimpleCommand(["java", "-cp", tempDir, JavaClassName(code, id)], Some(inputFile))]
  }

  /**
   * The handler up to `exec`: it writes the input file (empty when the request
   * has none) whatever the language, and only then dispatches on the language;
   * a supported one gets its source file written and its command run.
   */
  function PlanRun(req: RunRequest, id: nat, tempDir: string): (p: Plan)
    ensures p.effects != [] && p.effects[0] == WriteFile(InputPath(tempDir, id), req.input.GetOr(""))
    ensures p.rejected <==> ParseLanguage(req.language).None?
    ensures p.rejected ==> |p.effects| == 1
    ensures !p.rejected ==>
              && |p.effects| == 3 && p.effects[1].WriteFile? && p.effects[1].contents == req.code
              && p.effects[2].Exec? && p.effects[2].timeoutMs == RunTimeoutMs
              && p.effects[2].command != [] && |p.effects[2].command[0].words| >= 2
              && p.effects[2].command[0].words[1] == p.effects[1].path
  {
    var writeInput := WriteFile(InputPath(tempDir, id), req.input.GetOr(""));
    match ParseLanguage(req.language)
    case None => Plan([writeInput], true)
    case Some(lang) =>
      Plan([writeInput,
            WriteFile(SourcePath(lang, req.code, id, tempDir), req.code),
            Exec(Pipeline(lang, req.code, id, tempDir), RunTimeoutMs)], false)
  }

  // ---------------------------------------------------------------------
  // Output and complexity estimates
  // ---------------------------------------------------------------------

  /** The `output` field: on failure the standard error, or the error message when that is empty; otherwise the standard output; trimmed. */
  function SelectOutput(o: ExecOutcome): (out: string)
    ensures out == [] || (!IsSpace(out[0]) && !IsSpace(out[|out| - 1]))
  {
    Trim(match o.error
         case Some(message) => if o.stderr != "" then o.stderr else message
         case None => o.stdout)
  }

  predicate NotCloseParen(c: char) {
    c != ')'
  }

  /**
   * `/<Label>:\s*O\(([^)]+)\)/i` tried at position `i`, for the lower-case
   * `field`: the text between the parentheses. Without the `u` flag the `i`
   * flag folds only ASCII letters onto the pattern's ASCII letters. The `\s*`
   * is followed by `O`, which is not white space, so it takes its whole run;
   * `[^)]+` must be followed by `)`, so it takes its whole run too.
   */
  function EstimateAt(text: string, field: string, i: nat): (r: Option<string>)
    ensures r.Some? ==> r.value != [] && ')' !in r.value
  {
    var n := |field| + 1;
    if !(i + n <= |text| && Lower(text[i..i + n]) == field + ":") then None
    else
      var a := RunEnd(text, i + n, IsSpace);
      if !(a + 2 <= |text| && LowerChar(text[a]) == 'o' && text[a + 1] == '(') then None
      else
        var e := RunEnd(text, a + 2, NotCloseParen);
        if a + 2 < e < |text| then
          var c := text[a + 2..e];
          assert forall k :: 0 <= k < |c| ==> c[k] == text[a + 2 + k];
          Some(c)
        else None
  }

  /**
   * The pattern matches at position `i` with its `O` at `a`, capturing `c`:
   * the label in either letter case, white space up to `a`, `O` or `o`, `(`,
   * the non-empty capture free of `)`, then `)`.
   */
  ghost predicate EstimateMatchAt(text: string, field: string, i: nat, a: nat, c: string) {
    && i + |field| + 1 <= a
    && a + 2 + |c| < |text|
    && Lower(text[i..i + |field| + 1]) == field + ":"
    && (forall k :: i + |field| + 1 <= k < a ==> IsSpace(text[k]))
    && LowerChar(text[a]) == 'o' && text[a + 1] == '('
    && c != [] && text[a + 2..a + 2 + |c|] == c
    && (forall k :: 0 <= k < |c| ==> c[k] != ')')
    && text[a + 2 + |c|] == ')'
  }

  /** The scan at `i` captures `c` exactly when the pattern matches there with that capture. */
  lemma EstimateAtMeaning(text: string, field: string, i: nat, c: string)
    ensures EstimateAt(text, field, i) == Some(c) <==> exists a :: EstimateMatchAt(text, field, i, a, c)
  {
    if EstimateAt(text, field, i) == Some(c) {
      var a := EstimateScanned(text, field, i);
      assert EstimateMatchAt(text, field, i, a, c);
    }
    if exists a :: EstimateMatchAt(text, field, i, a, c) {
      var a :| EstimateMatchAt(text, field, i, a, c);
      EstimateMatched(text, field, i, a, c);
    }
  }

  /** A capture of the scan comes from a match whose `O` is where the white space ends. */
  lemma EstimateScanned(text: string, field: string, i: nat) returns (a: nat)
    requires EstimateAt(text, field, i).Some?
    ensures EstimateMatchAt(text, field, i, a, EstimateAt(text, field, i).value)
  {
    var n := |field| + 1;
    a := RunEnd(text, i + n, IsSpace);
    var e := RunEnd(text, a + 2, NotCloseParen);
    var c := text[a + 2..e];
    assert EstimateAt(text, field, i) == Some(c);
    assert forall k :: 0 <= k < |c| ==> c[k] == text[a + 2 + k];
  }

  /** A match makes the scan capture exactly its text between the parentheses. */
  lemma EstimateMatched(text: string, field: string, i: nat, a: nat, c: string)
    requires EstimateMatchAt(text, field, i, a, c)
    ensures EstimateAt(text, field, i) == Some(c)
  {
    var n := |field| + 1;
    var e := a + 2 + |c|;
    assert text[a] == 'o' || text[a] == 'O';
    RunEndIs(text, i + n, IsSpace, a);
    forall k | a + 2 <= k < e ensures NotCloseParen(text[k]) {
      assert text[k] == c[k - a - 2];
    }
    RunEndIs(text, a + 2, NotCloseParen, e);
  }

  /** The leftmost position, up to the end of `text`, where the pattern matches: its capture. */
  function FirstEstimate(text: string, field: string): (r: Option<string>)
    ensures r.None? ==> forall i: nat :: i <= |text| ==> EstimateAt(text, field, i).None?
    ensures r.Some? ==>
              exists i: nat :: && i <= |text| && r == EstimateAt(text, field, i)
                               && forall j :: 0 <= j < i ==> EstimateAt(text, field, j).None?
  {
    var m := (k: nat) => EstimateAt(text, field, k);
    assert forall k: nat :: m(k) == EstimateAt(text, field, k);
    FirstMatch(m, 0, |text|)
  }

  /**
   * `time` (field "time") or `space` (field "space"): `O(<capture>)` of the
   * leftmost match, and the placeholder exactly when the pattern matches
   * nowhere.
   */
  function EstimateField(text: string, field: string): (r: string)
    ensures r == Placeholder <==> forall i: nat :: i <= |text| ==> EstimateAt(text, field, i).None?
    ensures r != Placeholder ==>
              exists i: nat :: && i <= |text| && EstimateAt(text, field, i).Some?
                               && (forall j :: 0 <= j < i ==> EstimateAt(text, field, j).None?)
                               && r == "O(" + EstimateAt(text, field, i).value + ")"
    ensures r == Placeholder || (|r| > 3 && r[..2] == "O(" && r[|r| - 1] == ')' && ')' !in r[2..|r| - 1])
  {
    match FirstEstimate(text, field)
    case Some(c) =>
      var r := "O(" + c + ")";
      assert r[0] != Placeholder[0] && r[2..|r| - 1] == c;
      r
    case None => Placeholder
  }

  /** The leftmost match decides the field: a match at `i` with none before it gives `O(<its capture>)`. */
  lemma EstimateFieldAt(text: string, field: string, i: nat)
    requires i <= |text| && EstimateAt(text, field, i).Some?
    requires forall j :: 0 <= j < i ==> EstimateAt(text, field, j).None?
    ensures EstimateField(text, field) == "O(" + EstimateAt(text, field, i).value + ")"
  {
    FirstEstimateAt(text, field, i);
  }

  /** Only one position can be the leftmost match. */
  lemma FirstEstimateAt(text: string, field: string, i: nat)
    requires i <= |text| && EstimateAt(text, field, i).Some?
    requires forall j :: 0 <= j < i ==> EstimateAt(text, field, j).None?
    ensures FirstEstimate(text, field) == EstimateAt(text, field, i)
  {
    var r := FirstEstimate(text, field);
    assert r.Some?;
    var i': nat :| && i' <= |text| && r == EstimateAt(text, field, i')
              && forall j :: 0 <= j < i' ==> EstimateAt(text, field, j).None?;
    if i' != i {
      assert false;
    }
  }

  /**
   * The response once the command has finished: the selected output, the
   * estimates read from the analysis when it arrived, and the trimmed summary
   * when it arrived; an advisor failure keeps the defaults from there on.
   */
  function Respond(exec: ExecOutcome, advisor: AdvisorOutcome): (r: Reply)
    ensures r.RunReply?
    ensures r.output == SelectOutput(exec)
    ensures advisor.AnalysisFailed? ==> r.time == Placeholder && r.space == Placeholder && r.summary == ""
    ensures !advisor.AnalysisFailed? ==>
              r.time == EstimateField(advisor.analysis.GetOr(""), "time") &&
              r.space == EstimateField(advisor.analysis.GetOr(""), "space")
    ensures advisor.SummaryFailed? ==> r.summary == ""
    ensures advisor.Answered? ==> r.summary == Trim(advisor.summary.GetOr(""))
  {
    var analysis := match advisor
                    case AnalysisFailed => None
                    case SummaryFailed(a) => Some(a.GetOr(""))
                    case Answered(a, _) => Some(a.GetOr(""));
    var summary := match advisor
                   case Answered(_, s) => s.GetOr("")
                   case _ => "";
    RunReply(SelectOutput(exec),
             if analysis.Some? then EstimateField(analysis.value, "time") else Placeholder,
             if analysis.Some? then EstimateField(analysis.value, "space") else Placeholder,
             Trim(summary))
  }

  /** One request from start to reply. `exec` and `advisor` are consulted only when a command runs. */
  function Handle(req: RunRequest, id: nat, tempDir: string, exec: ExecOutcome, advisor: AdvisorOutcome): (h: Handled)
    ensures h.reply.ErrorReply? <==> ParseLanguage(req.language).None?
    ensures h.reply.ErrorReply? ==> h.reply.status == 400 && h.reply.error == UnsupportedLanguageError
    ensures h.reply.RunReply? <==> exists k :: 0 <= k < |h.effects| && h.effects[k].Exec?
    ensures h.reply.RunReply? ==> h.reply == Respond(exec, advisor)
  {
    var plan := PlanRun(req, id, tempDir);
    Handled(plan.effects,
            if plan.rejected then ErrorReply(400, UnsupportedLanguageError) else Respond(exec, advisor))
  }

  // ---------------------------------------------------------------------
  // Properties
  // ---------------------------------------------------------------------

  /**
   * A language outside the four is answered with 400 and no command, and only
   * then: the input file has been written all the same.
   */
  lemma UnsupportedLanguageRejected(req: RunRequest, id: nat, tempDir: string, exec: ExecOutcome, advisor: AdvisorOutcome)
    ensures var h := Handle(req, id, tempDir, exec, advisor);
            h.reply == ErrorReply(400, "Unsupported language") <==> req.language !in {"python", "cpp", "c", "java"}
    ensures req.language !in {"python", "cpp", "c", "java"} ==>
            Handle(req, id, tempDir, exec, advisor).effects == [WriteFile(InputPath(tempDir, id), req.input.GetOr(""))]
  {
  }

  /** Python: the source goes to `code-<id>.py` and runs as `python3 <file> < <input file>`. */
  lemma PythonPlan(req: RunRequest, id: nat, tempDir: string)
    requires req.language == "python"
    ensures var p := PlanRun(req, id, tempDir);
            var src := tempDir + "/code-" + DecimalString(id) + ".py";
            var inputFile := tempDir + "/input-" + DecimalString(id) + ".txt";
            && !p.rejected && |p.effects| == 3
            && p.effects[0] == WriteFile(inputFile, req.input.GetOr(""))
            && p.effects[1] == WriteFile(src, req.code)
            && p.effects[2].Exec? && p.effects[2].timeoutMs == 5000
            && CommandLine(p.effects[2].command) == "python3 " + src + " < " + inputFile
  {
    var src := tempDir + "/code-" + DecimalString(id) + ".py";
    JoinCons("python3", [src], " ");
  }

  /**
   * C and C++: the source goes to `code-<id>.c` or `code-<id>.cpp` and the
   * command is `<compiler> <src> -o <bin> && <bin> < <input file>`; the binary
   * is the only command reading the input, and the shell starts it exactly
   * when the compiler exits with status 0.
   */
  lemma CompiledPlan(req: RunRequest, id: nat, tempDir: string, compiler: string, ext: string, compileExit: int, runExit: int)
    requires (req.language == "c" && compiler == "gcc" && ext == ".c") || (req.language == "cpp" && compiler == "g++" && ext == ".cpp")
    ensures var p := PlanRun(req, id, tempDir);
            var src := tempDir + "/code-" + DecimalString(id) + ext;
            var bin := tempDir + "/code-" + DecimalString(id) + ".out";
            var inputFile := tempDir + "/input-" + DecimalString(id) + ".txt";
            && !p.rejected && |p.effects| == 3
            && p.effects[0] == WriteFile(inputFile, req.input.GetOr(""))
            && p.effects[1] == WriteFile(src, req.code)
            && p.effects[2].Exec? && p.effects[2].timeoutMs == 5000
            && CommandLine(p.effects[2].command) == compiler + " " + src + " -o " + bin + " && " + bin + " < " + inputFile
            && |p.effects[2].command| == 2
            && p.effects[2].command[0].stdin.None? && p.effects[2].command[1].stdin == Some(inputFile)
            && (StepsStarted([compileExit, runExit]) == 2 <==> compileExit == 0)
  {
    var src := tempDir + "/code-" + DecimalString(id) + ext;
    var bin := BinaryPath(tempDir, id);
    var inputFile := InputPath(tempDir, id);
    var lang := if req.language == "c" then C else Cpp;
    assert PlanRun(req, id, tempDir).effects[2] == Exec(Pipeline(lang, req.code, id, tempDir), RunTimeoutMs);
    assert Pipeline(lang, req.code, id, tempDir) ==
           [SimpleCommand([compiler, src, "-o", bin], None), SimpleCommand([bin], Some(inputFile))];
    CompileAndRunLine(compiler, src, bin, inputFile);
    AndChainStarts([compileExit, runExit], 1);
  }

  /** The shell text of a compile step followed by a run of the binary on the input file. */
  lemma CompileAndRunLine(compiler: string, src: string, bin: string, inputFile: string)
    ensures CommandLine([SimpleCommand([compiler, src, "-o", bin], None), SimpleCommand([bin], Some(inputFile))]) ==
            compiler + " " + src + " -o " + bin + " && " + bin + " < " + inputFile
  {
    var compile := SimpleCommand([compiler, src, "-o", bin], None);
    var run := SimpleCommand([bin], Some(inputFile));
    JoinCons("-o", [bin], " ");
    JoinCons(src, ["-o", bin], " ");
    JoinCons(compiler, [src, "-o", bin], " ");
    assert Render(compile) == compiler + " " + src + " -o " + bin;
    assert Render(run) == bin + " < " + inputFile;
    CommandLinePair(compile, run);
  }

  /**
   * Java's class: the public class the source declares, or `Main<id>` when it
   * declares none (a name the source itself never mentions).
   */
  lemma JavaClassFallback(code: string, id: nat)
    ensures JavaSource.GetPublicClassName(code).Some? ==> JavaClassName(code, id) == JavaSource.GetPublicClassName(code).value
    ensures JavaSource.GetPublicClassName(code).None? ==> JavaClassName(code, id) == "Main" + DecimalString(id)
  {
  }

  /**
   * Java: the source goes to `<class>.java` in the temporary directory and the
   * command is `javac <src> && java -cp <temp dir> <class> < <input file>`.
   */
  lemma JavaPlan(req: RunRequest, id: nat, tempDir: string)
    requires req.language == "java"
    ensures var p := PlanRun(req, id, tempDir);
            var cls := JavaClassName(req.code, id);
            var src := tempDir + "/" + cls + ".java";
            var inputFile := tempDir + "/input-" + DecimalString(id) + ".txt";
            && !p.rejected && |p.effects| == 3
            && p.effects[0] == WriteFile(inputFile, req.input.GetOr(""))
            && p.effects[1] == WriteFile(src, req.code)
            && p.effects[2].Exec? && p.effects[2].timeoutMs == 5000
            && CommandLine(p.effects[2].command) == "javac " + src + " && java -cp " + tempDir + " " + cls + " < " + inputFile
  {
    var cls := JavaClassName(req.code, id);
    var src := tempDir + "/" + cls + ".java";
    var inputFile := InputPath(tempDir, id);
    assert PlanRun(req, id, tempDir).effects[2] == Exec(Pipeline(Java, req.code, id, tempDir), RunTimeoutMs);
    assert Pipeline(Java, req.code, id, tempDir) ==
           [SimpleCommand(["javac", src], None), SimpleCommand(["java", "-cp", tempDir, cls], Some(inputFile))];
    JavaCommandLine(tempDir, cls, src, inputFile);
  }

  /** The shell text of the Java compile-and-run chain. */
  lemma JavaCommandLine(tempDir: string, cls: string, src: string, inputFile: string)
    ensures CommandLine([SimpleCommand(["javac", src], None), SimpleCommand(["java", "-cp", tempDir, cls], Some(inputFile))])
         == "javac " + src + " && java -cp " + tempDir + " " + cls + " < " + inputFile
  {
    JoinPair("javac", src, " ");
    JoinPair(tempDir, cls, " ");
    JoinCons("-cp", [tempDir, cls], " ");
    assert ["-cp"] + [tempDir, cls] == ["-cp", tempDir, cls];
    JoinCons("java", ["-cp", tempDir, cls], " ");
    assert ["java"] + ["-cp", tempDir, cls] == ["java", "-cp", tempDir, cls];
    CommandLinePair(SimpleCommand(["javac", src], None), SimpleCommand(["java", "-cp", tempDir, cls], Some(inputFile)));
  }

  /**
   * Requests with different ids write different input files and, for Python,
   * C and C++, different source files; a Java source that declares its public
   * class is written to the same `<class>.java` whatever the id.
   */
  lemma FileNamesPerId(code: string, lang: Language, id1: nat, id2: nat, tempDir: string)
    ensures id1 != id2 ==> InputPath(tempDir, id1) != InputPath(tempDir, id2)
    ensures id1 != id2 && lang != Java ==> SourcePath(lang, code, id1, tempDir) != SourcePath(lang, code, id2, tempDir)
    ensures lang == Java && JavaSource.GetPublicClassName(code).Some? ==>
            SourcePath(lang, code, id1, tempDir) == SourcePath(lang, code, id2, tempDir)
  {
    var d1, d2 := DecimalString(id1), DecimalString(id2);
    if InputPath(tempDir, id1) == InputPath(tempDir, id2) {
      MiddleCancel(tempDir + "/input-", d1, d2, ".txt");
      DecimalInjective(id1, id2);
    }
    if lang != Java && SourcePath(lang, code, id1, tempDir) == SourcePath(lang, code, id2, tempDir) {
      var ext := match lang case Python => ".py" case Cpp => ".cpp" case _ => ".c";
      assert SourcePath(lang, code, id1, tempDir) == tempDir + "/code-" + d1 + ext;
      assert SourcePath(lang, code, id2, tempDir) == tempDir + "/code-" + d2 + ext;
      MiddleCancel(tempDir + "/code-", d1, d2, ext);
      DecimalInjective(id1, id2);
    }
  }

  /**
   * The `output` field: trimmed standard error when the command failed and
   * wrote some, the trimmed error message when it failed silently, trimmed
   * standard output when it succeeded; what a failed command printed on
   * standard output never reaches the client.
   */
  lemma OutputSelection(o: ExecOutcome, otherStdout: string)
    ensures o.error.Some? && o.stderr != "" ==> SelectOutput(o) == Trim(o.stderr)
    ensures o.error.Some? && o.stderr == "" ==> SelectOutput(o) == Trim(o.error.value)
    ensures o.error.None? ==> SelectOutput(o) == Trim(o.stdout)
    ensures o.error.Some? ==> SelectOutput(o.(stdout := otherStdout)) == SelectOutput(o)
  {
  }

  /**
   * An advisor reply that states the label (in any letter case), optional
   * white space, `O(`, a complexity free of `)` and `)`, after a prefix in
   * which the pattern matches nowhere, yields exactly that estimate.
   */
  lemma {:induction false} EstimateRead(text: string, prefix: string, tag: string, ws: string, c: string, rest: string, field: string)
    requires text == prefix + tag + ws + "O(" + c + ")" + rest
    requires forall j :: 0 <= j < |prefix| ==> EstimateAt(text, field, j).None?
    requires Lower(tag) == field + ":"
    requires Blank(ws) && c != [] && ')' !in c
    ensures EstimateField(text, field) == "O(" + c + ")"
  {
    EstimateAtTag(text, prefix, tag, ws, c, rest, field);
    EstimateFieldAt(text, field, |prefix|);
  }

  /** `EstimateRead`, with the estimate written out as one string. */
  lemma EstimateReadAs(text: string, prefix: string, tag: string, ws: string, c: string, rest: string, field: string, estimate: string)
    requires text == prefix + tag + ws + "O(" + c + ")" + rest
    requires forall j :: 0 <= j < |prefix| ==> EstimateAt(text, field, j).None?
    requires Lower(tag) == field + ":"
    requires Blank(ws) && c != [] && ')' !in c
    requires estimate == "O(" + c + ")"
    ensures EstimateField(text, field) == estimate
  {
    EstimateRead(text, prefix, tag, ws, c, rest, field);
  }

  /** The pattern matches right after such a prefix, capturing `c`. */
  lemma EstimateAtTag(text: string, prefix: string, tag: string, ws: string, c: string, rest: string, field: string)
    requires text == prefix + tag + ws + "O(" + c + ")" + rest
    requires Lower(tag) == field + ":"
    requires Blank(ws) && c != [] && ')' !in c
    ensures EstimateAt(text, field, |prefix|) == Some(c)
  {
    var i := |prefix|;
    var n := |field| + 1;
    var a := i + n + |ws|;
    assert text[i..i + n] == tag;
    forall k | i + n <= k < a ensures IsSpace(text[k]) {
      assert text[k] == ws[k - i - n];
    }
    assert text[a] == 'O' && text[a + 1] == '(';
    assert text[a + 2..a + 2 + |c|] == c;
    assert text[a + 2 + |c|] == ')';
    EstimateMatched(text, field, i, a, c);
  }

  /** A position whose character does not fold onto the label's first letter starts no match. */
  lemma EstimateNeedsLabel(text: string, field: string, j: nat)
    requires field != [] && j < |text| && LowerChar(text[j]) != field[0]
    ensures EstimateAt(text, field, j).None?
  {
    if EstimateAt(text, field, j).Some? {
      var a := EstimateScanned(text, field, j);
    }
  }

  /**
   * The reply the prompt asks for, `Time: O(n)` on one line and
   * `Space: O(1)` on the next, yields `O(n)` and `O(1)`.
   */
  lemma PromptedReply(text: string)
    requires text == "Time: O(n)\nSpace: O(1)"
    ensures EstimateField(text, "time") == "O(n)"
    ensures EstimateField(text, "space") == "O(1)"
  {
    PromptedTime(text);
    PromptedSpace(text);
  }

  lemma PromptedTime(text: string)
    requires text == "Time: O(n)\nSpace: O(1)"
    ensures EstimateField(text, "time") == "O(n)"
  {
    assert text == [] + "Time:" + " " + "O(" + "n" + ")" + "\nSpace: O(1)";
    EstimateReadAs(text, [], "Time:", " ", "n", "\nSpace: O(1)", "time", "O(n)");
  }

  lemma PromptedSpace(text: string)
    requires text == "Time: O(n)\nSpace: O(1)"
    ensures EstimateField(text, "space") == "O(1)"
  {
    var first := "Time: O(n)\n";
    assert text == first + "Space:" + " " + "O(" + "1" + ")" + "";
    FirstLineHasNoS(first);
    NoEstimateIn(text, first, "Space: O(1)", "space");
    EstimateReadAs(text, first, "Space:", " ", "1", "", "space", "O(1)");
  }

  /** No position of a prefix whose characters never fold onto the label's first letter starts a match. */
  lemma NoEstimateIn(text: string, prefix: string, rest: string, field: string)
    requires text == prefix + rest && field != []
    requires forall k :: 0 <= k < |prefix| ==> LowerChar(prefix[k]) != field[0]
    ensures forall j :: 0 <= j < |prefix| ==> EstimateAt(text, field, j).None?
  {
    forall j | 0 <= j < |prefix| ensures EstimateAt(text, field, j).None? {
      assert text[j] == prefix[j];
      EstimateNeedsLabel(text, field, j);
    }
  }

  /** No character of the first line of the prompted reply folds onto `s`. */
  lemma FirstLineHasNoS(first: string)
    requires first == "Time: O(n)\n"
    ensures forall k :: 0 <= k < |first| ==> LowerChar(first[k]) != 's'
  {
    assert 's' !in first && 'S' !in first;
    forall k | 0 <= k < |first| ensures LowerChar(first[k]) != 's' {
      assert first[k] in first;
    }
  }

  /**
   * When the first advisor call fails, `time` and `space` stay "N/A" and the
   * summary empty; when only the second fails, the estimates are extracted and
   * the summary is empty; the output is reported either way.
   */
  lemma AdvisorFailureKeepsDefaults(exec: ExecOutcome, analysis: Option<string>)
    ensures Respond(exec, AnalysisFailed) == RunReply(SelectOutput(exec), "N/A", "N/A", "")
    ensures Respond(exec, SummaryFailed(analysis)) ==
            RunReply(SelectOutput(exec), EstimateField(analysis.GetOr(""), "time"), EstimateField(analysis.GetOr(""), "space"), "")
  {
    assert Trim("") == "" by {
      assert Blank("");
    }
  }

  /** A reply in the prompted format fills in both estimates, and the summary comes back trimmed. */
  lemma AnsweredReply(exec: ExecOutcome, summary: string)
    ensures Respond(exec, Answered(Some("Time: O(n)\nSpace: O(1)"), Some(summary))) ==
            RunReply(SelectOutput(exec), "O(n)", "O(1)", Trim(summary))
  {
    PromptedReply("Time: O(n)\nSpace: O(1)");
  }

  /** The `time` and `space` fields of every reply are "N/A" or `O(...)`, never empty, and the summary is trimmed. */
  lemma ReplyShape(exec: ExecOutcome, advisor: AdvisorOutcome)
    ensures var r := Respond(exec, advisor);
            && r.time != "" && r.space != ""
            && (r.summary == [] || (!IsSpace(r.summary[0]) && !IsSpace(r.summary[|r.summary| - 1])))
  {
  }
}

=== FILE: text.dfy ===
/**
 * Characters and strings as ECMAScript sees them: the character classes that
 * `\s`, `\w` and `.` use, ASCII case mapping, `String.prototype.trim`,
 * `includes`, the leftmost search that `String.prototype.match` performs, and
 * the decimal rendering of a non-negative integer in a template string.
 */
module Text {
  import opened Wrappers

  // ---------------------------------------------------------------------
  // Character classes
  // ---------------------------------------------------------------------

  /** ECMAScript LineTerminator: the characters `.` does not match and before which `$` matches in multiline mode. */
  predicate IsLineTerminator(c: char) {
    c == '\n' || c == '\r' || c == '\U{2028}' || c == '\U{2029}'
  }

  /** ECMAScript WhiteSpace or LineTerminator: what `\s` matches and what `trim` removes. */
  predicate IsSpace(c: char) {
    || IsLineTerminator(c)
    || c == '\t' || c == '\U{000B}' || c == '\U{000C}' || c == ' '
    || c == '\U{00A0}' || c == '\U{FEFF}' || c == '\U{1680}'
    || ('\U{2000}' <= c <= '\U{200A}')
    || c == '\U{202F}' || c == '\U{205F}' || c == '\U{3000}'
  }

  /** What `\w` matches when the pattern has no `u` flag: `[A-Za-z0-9_]`. */
  predicate IsWordChar(c: char) {
    ('a' <= c <= 'z') || ('A' <= c <= 'Z') || ('0' <= c <= '9') || c == '_'
  }

  predicate IsDigit(c: char) {
    '0' <= c <= '9'
  }

  /** Every character of `s` is white space: `!s.trim()` holds in JavaScript. */
  predicate Blank(s: string) {
    forall k :: 0 <= k < |s| ==> IsSpace(s[k])
  }

  // ---------------------------------------------------------------------
  // ASCII case mapping
  // ---------------------------------------------------------------------

  function LowerChar(c: char): (d: char)
    ensures 'A' <= c <= 'Z' ==> d as int == c as int + 32
    ensures !('A' <= c <= 'Z') ==> d == c
  {
    if 'A' <= c <= 'Z' then (c as int + 32) as char else c
  }

  function UpperChar(c: char): (d: char)
    ensures 'a' <= c <= 'z' ==> d as int == c as int - 32
    ensures !('a' <= c <= 'z') ==> d == c
  {
    if 'a' <= c <= 'z' then (c as int - 32) as char else c
  }

  /** `s` with every ASCII capital replaced by its small letter. */
  function Lower(s: string): (r: string)
    ensures |r| == |s|
    ensures forall k :: 0 <= k < |s| ==> r[k] == LowerChar(s[k])
  {
    seq(|s|, k requires 0 <= k < |s| => LowerChar(s[k]))
  }

  /** Lowering twice is lowering once. */
  lemma LowerIdempotent(s: string)
    ensures Lower(Lower(s)) == Lower(s)
  {
  }

  /** Lowering works character by character, so it distributes over concatenation. */
  lemma LowerConcat(a: string, b: string)
    ensures Lower(a + b) == Lower(a) + Lower(b)
  {
  }

  // ---------------------------------------------------------------------
  // Trimming (String.prototype.trim)
  // ---------------------------------------------------------------------

  /** White space followed by white space is white space. */
  lemma BlankConcat(a: string, b: string)
    requires Blank(a) && Blank(b)
    ensures Blank(a + b)
  {
    forall k | 0 <= k < |a + b| ensures IsSpace((a + b)[k]) {
      if k < |a| {
        assert (a + b)[k] == a[k];
      } else {
        assert (a + b)[k] == b[k - |a|];
      }
    }
  }

  /** `s` without its leading white space. */
  function TrimStart(s: string): (r: string)
    ensures |r| <= |s| && r == s[|s| - |r|..]
    ensures Blank(s[..|s| - |r|])
    ensures r == [] || !IsSpace(r[0])
    decreases |s|
  {
    if s != [] && IsSpace(s[0]) then
      var u := s[1..];
      var r := TrimStart(u);
      assert s[|s| - |r|..] == u[|u| - |r|..];
      assert s[..|s| - |r|] == [s[0]] + u[..|u| - |r|];
      BlankConcat([s[0]], u[..|u| - |r|]);
      r
    else
      assert s[..0] == [];
      s
  }

  /** `s` without its trailing white space. */
  function TrimEnd(s: string): (r: string)
    ensures |r| <= |s| && r == s[..|r|]
    ensures Blank(s[|r|..])
    ensures r == [] || !IsSpace(r[|r| - 1])
    decreases |s|
  {
    if s != [] && IsSpace(s[|s| - 1]) then
      var u := s[..|s| - 1];
      var r := TrimEnd(u);
      assert s[..|r|] == u[..|r|];
      assert s[|r|..] == u[|r|..] + [s[|s| - 1]];
      BlankConcat(u[|r|..], [s[|s| - 1]]);
      r
    else
      assert s[|s|..] == [];
      s
  }

  /** `s[..i]` and `s[j..]` are the white-space margins around `s[i..j]`. */
  ghost predicate Margins(s: string, i: nat, j: nat) {
    i <= j <= |s| && Blank(s[..i]) && Blank(s[j..])
  }

  /** `s.trim()`: the text between the leading and the trailing white space. */
  function Trim(s: string): (r: string)
    ensures exists i: nat, j: nat :: Margins(s, i, j) && r == s[i..j]
    ensures r == [] || (!IsSpace(r[0]) && !IsSpace(r[|r| - 1]))
    ensures r == [] <==> Blank(s)
  {
    var t := TrimStart(s);
    var r := TrimEnd(t);
    TrimmedMiddle(s, |s| - |t|, t, r);
    r
  }

  /** Cutting a blank prefix off `s` and then a blank suffix off the rest leaves the middle between two margins. */
  lemma TrimmedMiddle(s: string, i: nat, t: string, r: string)
    requires i <= |s| && t == s[i..] && Blank(s[..i])
    requires |r| <= |t| && r == t[..|r|] && Blank(t[|r|..])
    ensures Margins(s, i, i + |r|) && r == s[i..i + |r|]
    ensures r == [] ==> Blank(s)
  {
    assert s[i + |r|..] == t[|r|..];
    if r == [] {
      assert s == s[..i] + t;
      BlankConcat(s[..i], t);
    }
  }

  // ---------------------------------------------------------------------
  // Substrings
  // ---------------------------------------------------------------------

  /** `p` occurs in `s` at index `i`. */
  predicate OccursAt(s: string, p: string, i: nat) {
    i + |p| <= |s| && s[i..i + |p|] == p
  }

  /** `s.includes(p)`, searching from the left. */
  predicate Contains(s: string, p: string)
    decreases |s|
  {
    OccursAt(s, p, 0) || (s != [] && Contains(s[1..], p))
  }

  /** `Contains` holds exactly when there is an index at which `p` occurs. */
  lemma {:induction false} ContainsIff(s: string, p: string)
    ensures Contains(s, p) <==> exists i: nat :: OccursAt(s, p, i)
    decreases |s|
  {
    if Contains(s, p) && !OccursAt(s, p, 0) {
      ContainsIff(s[1..], p);
      var i: nat :| OccursAt(s[1..], p, i);
      assert s[1..][i..i + |p|] == s[i + 1..i + 1 + |p|];
      assert OccursAt(s, p, i + 1);
    }
    if (exists i: nat :: OccursAt(s, p, i)) && !OccursAt(s, p, 0) {
      var i: nat :| OccursAt(s, p, i);
      assert i > 0;
      assert s[1..][i - 1..i - 1 + |p|] == s[i..i + |p|];
      assert OccursAt(s[1..], p, i - 1);
      ContainsIff(s[1..], p);
    }
  }

  /** A pattern whose first two characters never stand side by side in `s` does not occur in `s`. */
  lemma AbsentPair(s: string, p: string)
    requires |p| >= 2
    requires forall k :: 0 <= k < |s| - 1 ==> s[k] != p[0] || s[k + 1] != p[1]
    ensures !Contains(s, p)
  {
    ContainsIff(s, p);
    forall i: nat ensures !OccursAt(s, p, i) {
      if i + |p| <= |s| {
        assert s[i..i + |p|][0] == s[i] && s[i..i + |p|][1] == s[i + 1];
      }
    }
  }

  /** Text found in `s` is still found once more text is put on either side. */
  lemma ContainsInContext(s: string, p: string, before: string, after: string)
    requires Contains(s, p)
    ensures Contains(before + s + after, p)
  {
    ContainsIff(s, p);
    var i: nat :| OccursAt(s, p, i);
    var t := before + s + after;
    assert t[|before| + i..|before| + i + |p|] == s[i..i + |p|];
    assert OccursAt(t, p, |before| + i);
    ContainsIff(t, p);
  }

  /** Containment is transitive: what occurs in `p` occurs wherever `p` occurs. */
  lemma ContainsTransitive(s: string, p: string, q: string)
    requires Contains(s, p) && Contains(p, q)
    ensures Contains(s, q)
  {
    ContainsIff(s, p);
    ContainsIff(p, q);
    var i: nat :| OccursAt(s, p, i);
    var j: nat :| OccursAt(p, q, j);
    forall k | 0 <= k < |q| ensures s[i + j + k] == q[k] {
      assert q[k] == p[j..j + |q|][k] == p[j + k];
      assert p[j + k] == s[i..i + |p|][j + k] == s[i + j + k];
    }
    assert s[i + j..i + j + |q|] == q;
    assert OccursAt(s, q, i + j);
    ContainsIff(s, q);
  }

  /** Every character of a contained text is a character of the containing one. */
  lemma ContainsChars(s: string, p: string, k: nat)
    requires Contains(s, p) && k < |p|
    ensures p[k] in s
  {
    ContainsIff(s, p);
    var i: nat :| OccursAt(s, p, i);
    assert s[i + k] == p[k];
  }

  // ---------------------------------------------------------------------
  // Scanning
  // ---------------------------------------------------------------------

  /** The end of the longest run of characters satisfying `inRun` that starts at `i`. */
  function RunEnd(s: string, i: nat, inRun: char -> bool): (j: nat)
    requires i <= |s|
    ensures i <= j <= |s|
    ensures forall k :: i <= k < j ==> inRun(s[k])
    ensures j == |s| || !inRun(s[j])
    decreases |s| - i
  {
    if i < |s| && inRun(s[i]) then RunEnd(s, i + 1, inRun) else i
  }

  /** A run is determined by its two ends: any `j` with the two properties above is `RunEnd`. */
  lemma RunEndIs(s: string, i: nat, inRun: char -> bool, j: nat)
    requires i <= j <= |s|
    requires forall k :: i <= k < j ==> inRun(s[k])
    requires j == |s| || !inRun(s[j])
    ensures RunEnd(s, i, inRun) == j
  {
  }

  /** No position in `from..k` matches, and `k` does. */
  ghost predicate LeftmostAt<T>(m: nat -> Option<T>, from: nat, k: nat) {
    m(k).Some? && forall j :: from <= j < k ==> m(j).None?
  }

  /**
   * The leftmost match of a pattern whose attempt at position `k` is `m(k)`,
   * trying `from`, `from + 1`, ..., `last` in turn: how `String.prototype.match`
   * scans a subject string for a pattern without the `g` flag.
   */
  function FirstMatch<T>(m: nat -> Option<T>, from: nat, last: nat): (r: Option<T>)
    ensures r.None? ==> forall k :: from <= k <= last ==> m(k).None?
    ensures r.Some? ==> exists k :: from <= k <= last && LeftmostAt(m, from, k) && r == m(k)
    decreases last + 1 - from
  {
    if from > last then None
    else if m(from).Some? then
      assert LeftmostAt(m, from, from);
      m(from)
    else
      var r := FirstMatch(m, from + 1, last);
      assert r.Some? ==> exists k :: from <= k <= last && LeftmostAt(m, from, k) && r == m(k) by {
        if r.Some? {
          var k :| from + 1 <= k <= last && LeftmostAt(m, from + 1, k) && r == m(k);
          assert LeftmostAt(m, from, k);
        }
      }
      r
  }

  // ---------------------------------------------------------------------
  // Decimal rendering of non-negative integers (`${n}`)
  // ---------------------------------------------------------------------

  function DigitChar(d: nat): (c: char)
    requires d < 10
    ensures IsDigit(c) && c as int - '0' as int == d
  {
    ('0' as int + d) as char
  }

  predicate AllDigits(s: string) {
    forall k :: 0 <= k < |s| ==> IsDigit(s[k])
  }

  /** The decimal digits of `n`, most significant first, without leading zeros. */
  function DecimalString(n: nat): (r: string)
    ensures r != [] && AllDigits(r)
    ensures |r| > 1 ==> r[0] != '0'
    decreases n
  {
    if n < 10 then [DigitChar(n)] else DecimalString(n / 10) + [DigitChar(n % 10)]
  }

  /** The number a string of decimal digits denotes. */
  function DecimalValue(s: string): nat
    requires AllDigits(s)
    decreases |s|
  {
    if s == [] then 0 else DecimalValue(s[..|s| - 1]) * 10 + (s[|s| - 1] as int - '0' as int)
  }

  /** Reading the rendered digits back gives the number. */
  lemma {:induction false} DecimalRoundTrip(n: nat)
    ensures DecimalValue(DecimalString(n)) == n
    decreases n
  {
    if n >= 10 {
      DecimalRoundTrip(n / 10);
      var r := DecimalString(n);
      assert r[..|r| - 1] == DecimalString(n / 10);
    }
  }

  /** Different numbers are rendered differently. */
  lemma DecimalInjective(m: nat, n: nat)
    requires DecimalString(m) == DecimalString(n)
    ensures m == n
  {
    DecimalRoundTrip(m);
    DecimalRoundTrip(n);
  }

  /** When `a + x + b == a + y + b`, then `x == y`. */
  lemma MiddleCancel(a: string, x: string, y: string, b: string)
    requires a + x + b == a + y + b
    ensures x == y
  {
    var s := a + x + b;
    assert |x| == |y|;
    assert x == s[|a|..|a| + |x|];
    assert y == (a + y + b)[|a|..|a| + |y|];
  }
}

=== FILE: wrappers.dfy ===
/** The optional value used where the source has `null`, `undefined` or a failed match. */
module Wrappers {

  datatype Option<+T> = None | Some(value: T) {

    /** The value, or `default` when there is none (JavaScript's `x ?? default`). */
    function GetOr(default: T): T {
      match this
      case Some(v) => v
      case None => default
    }
  }
}
